=== FILE: README.md ===
# Contact list: a verified model

A Dafny model of the logic of a small contact-list application. The
application has three parts: a FastAPI server that keeps contacts in a
SQLite table, a browser API client that talks to it, and a React screen
with a search box, a list and an add-contact form. The model covers:

- **Search filter and screen controller** (`App.jsx`), modules `App` and
  `Contacts`.
  - The filter runs over the full list and the search term.
  - The state record is `{contacts, searchTerm, loading, error, showAddForm}`.
    The filtered list is derived from it, not stored.
  - Pure transitions cover load start and finish, a search change,
    opening and closing the form, a created contact and a deleted contact.
  - The card's five render guards are modelled as written.
- **Add-contact form** (`AddContactForm.jsx`), module `ContactForm`.
  - The validator maps a draft to its error object.
  - The email pattern `\S+@\S+\.\S+` and the phone pattern
    `^\+?[\d\s\-\(\)]+$` are each written twice. One version reads the
    regular expression literally. The other is the check the validator
    runs. Both are proved to accept the same strings.
  - Submit gating and the per-field edit handler are modelled.
- **Contact store** (`backend/main.py`), module `ContactStore`.
  - The table is a sequence of rows in id order.
  - Every handler returns its value or an HTTP error with status and
    detail: list with search and paging, get, create with the generated
    avatar URL, partial update, delete, and search.
- **Route table** (`backend/main.py`), module `ServerRoutes`. It maps a
  method and request target to the handler they reach, or to 404, 405 or
  422.
- **API client** (`services/api.js`), module `ApiClient`.
  - The endpoint and method of each operation.
  - The URL and the fetch options `request` builds, including the header
    merge.
  - How a settled `fetch` becomes a value or a thrown error message.
- **Cross-component lemmas**, module `Wiring`.
  - Every request of the client reaches the server handler of the same
    name with the same id.
  - The screen's load receives the first page of the list handler under
    its defaults (offset 0, limit 100): the whole table when it has at
    most 100 rows.
  - A failed load always shows the error panel.
  - When the client's list holds the same contacts as the server's table,
    it still does after each create or delete the server accepts.

Shared helpers:

- `Text`:
  - JavaScript `trim` over the ECMAScript white-space set;
  - ASCII lower-casing;
  - `includes`;
  - `replace`;
  - decimal printing and parsing of integers.
- `Seqs`: order-preserving filter and the subsequence relation.
- `Wrappers`: `Option` and `Result`.

Calls into code the model cannot see are function parameters:

- SQL `contains`;
- `JSON.stringify`;
- the `URLSearchParams` / `encodeURIComponent` encodings;
- `fetch` itself, as the `Outcome` value it settles to.

Database rules the code relies on are written out:

- a new row gets the largest id plus one;
- a negative `OFFSET` counts as 0;
- a negative `LIMIT` means no limit;
- a query without `ORDER BY` returns rows in rowid (id) order, as SQLite's table scan does. SQL itself does not promise this, and the list and search queries have none.

Behaviours of the code worth stating on their own:

- **Email "required" check.** The value is trimmed first, so an
  all-white-space email gets "Email is required".
- **Phone check.** The pattern is anchored. It allows `+` only as the
  first character, needs at least one class character after it, and
  accepts any white space, not only the space character.
- **Retry.** The retry button reloads the page, so a retry is a fresh
  load from the initial state.
- **Update.** Update is partial: only the fields sent are written.
- **Delete.** The delete handler answers with a message body, which the
  client ignores.

## Model

| member | source | states |
|---|---|---|
| Text.Trim | contact-list-app/src/App.jsx:44 | `trim()` gives an empty string exactly for all-white-space input, and otherwise starts and ends with a non-space character |
| Text.TrimStripsOuterSpace | contact-list-app/src/App.jsx:44 | `trim()` returns a slice of the input with only white space before and after it, so it removes exactly the leading and trailing white space |
| Text.BlankIffTrimEmpty | contact-list-app/src/components/AddContactForm.jsx:21 | a value is blank, in the sense of `!value.trim()`, exactly when trimming leaves nothing |
| Text.ContainsIff | contact-list-app/src/App.jsx:48-50 | `includes` holds exactly when the term occurs at some position of the text |
| Text.Lower | contact-list-app/src/App.jsx:48-49 | `toLowerCase` keeps the length, turns each upper-case ASCII letter into its lower-case partner and keeps every other character |
| Text.IntToDecimal | contact-list-app/src/services/api.js:41 | `String(id)` is a non-empty decimal spelling: `-` exactly for a negative id, digits after it, and no leading zero except in "0" |
| Text.IntRoundTrip | contact-list-app/src/services/api.js:41 | an id printed into a path parses back to the same integer |
| Seqs.KeepIsSubsequence | contact-list-app/src/App.jsx:47-51 | `Array.filter` only deletes elements and keeps the order of the rest |
| Seqs.KeepMembership | contact-list-app/src/App.jsx:47-51 | an element survives the filter exactly when it is in the input and passes the test |
| Seqs.KeepSameMultiset | contact-list-app/src/App.jsx:70 | filtering two lists holding the same elements gives two lists holding the same elements |
| Contacts.WithoutId | contact-list-app/src/App.jsx:70 | removing by id leaves exactly the contacts with another id |
| Contacts.WithoutIdMultiplicity | contact-list-app/src/App.jsx:70 | removing by id keeps every copy of a contact with another id and drops every copy of one with that id |
| Contacts.WithoutPresentId | backend/main.py:156-160 | with unique ids, removing an id that is present removes exactly one contact |
| Contacts.FindById | backend/main.py:107 | the lookup finds a contact exactly when one has that id, and it is a contact of the list with that id |
| App.FilterContacts | contact-list-app/src/App.jsx:43-54 | the filtered list is no longer than the full list, is the full list for a blank term, and otherwise holds only contacts of the list that match |
| App.FilterMultiplicity | contact-list-app/src/App.jsx:43-54 | the filter keeps every copy of a shown contact and none of a hidden one |
| App.BlankTermKeepsAll | contact-list-app/src/App.jsx:44-45 | an empty or all-white-space term leaves the list unchanged |
| App.FilterIsSubsequence | contact-list-app/src/App.jsx:43-54 | the filtered list is an order-preserving subsequence of the full list |
| App.FilterMembership | contact-list-app/src/App.jsx:47-51 | for a non-blank term, a contact is shown iff lower(name) or lower(email) contains lower(term), or the phone contains the untrimmed term as typed |
| App.MatchingContactShown | contact-list-app/src/App.jsx:43-54 | a matching contact is never filtered out, whatever the term |
| App.SearchJaneExample | contact-list-app/src/App.jsx:47-51 | searching "jane" over Jane Doe and John keeps only Jane Doe, found through the case-insensitive name match alone |
| App.StartLoad | contact-list-app/src/App.jsx:25-26 | a load starts with loading on and the error null, keeping the list, the term and the form flag, so only the spinner renders |
| App.FinishLoad | contact-list-app/src/App.jsx:28-36 | success replaces the list with the data; failure keeps the list and stores the message; loading ends either way |
| App.LoadShowsData | contact-list-app/src/App.jsx:23-36 | a load from a blank term shows exactly the returned data with no error |
| App.SetSearchTerm | contact-list-app/src/App.jsx:132 | typing changes only the term: the list, loading, error and form flag are kept, and the filtered list follows the term |
| App.OpenAddForm | contact-list-app/src/App.jsx:136 | the add button opens the form and keeps the list, term, loading and error, so the card renders the same panel |
| App.CloseAddForm | contact-list-app/src/App.jsx:188 | closing the form keeps the list, term, loading and error, so the card renders the same panel |
| App.ContactCreated | contact-list-app/src/App.jsx:56-65 | a created contact is prepended and the form closes, with term, loading and error kept; a failed create changes nothing |
| App.CreatedContactFiltered | contact-list-app/src/App.jsx:58 | after a create, the filtered list is the old one with the new contact in front exactly when it passes the search |
| App.ContactDeleted | contact-list-app/src/App.jsx:67-75 | a delete removes every contact with that id and keeps the rest in order, with term, form flag, loading and error kept; a failed delete changes nothing |
| App.DeletedContactFiltered | contact-list-app/src/App.jsx:69-70 | after a delete, the filtered list is the old filtered list without that id |
| App.Panels | contact-list-app/src/App.jsx:152-179 | some panel always renders; the spinner exactly when loading, the error exactly when it is truthy, the list only for a non-empty filtered list, and the two empty states only for an empty one, split by the term |
| App.ExactlyOnePanel | contact-list-app/src/App.jsx:152-179 | when not both loading and showing an error, exactly one of spinner, error, "no contacts found", "no contacts yet" or the list renders |
| App.NoMatchesMeansNothingMatches | contact-list-app/src/App.jsx:156-162 | "No contacts found" under a non-blank term means no contact matches it |
| App.StepPreservesConsistent | contact-list-app/src/App.jsx:23-75 | no transition ever leaves the spinner and an error shown together |
| App.ReachableRendersOnePanel | contact-list-app/src/App.jsx:152-179 | after any sequence of events, exactly one panel renders |
| App.LoadFailureThenRetry | contact-list-app/src/App.jsx:23-40 | a failed first load shows only the error panel; a successful one shows only the list |
| ContactForm.Set | contact-list-app/src/components/AddContactForm.jsx:59-62 | the edit sets the named field and no other |
| ContactForm.EmailShapeIff | contact-list-app/src/components/AddContactForm.jsx:27 | the validator's email check accepts exactly the strings in which `\S+@\S+\.\S+` matches somewhere |
| ContactForm.PhoneShapeIff | contact-list-app/src/components/AddContactForm.jsx:33 | the validator's phone check accepts exactly the strings matched whole by `^\+?[\d\s\-\(\)]+$` |
| ContactForm.PhonePlusOnlyFirst | contact-list-app/src/components/AddContactForm.jsx:33 | a valid phone has `+` only as its first character, and a lone `+` is invalid |
| ContactForm.FieldError | contact-list-app/src/components/AddContactForm.jsx:21-35 | a field gets a message exactly when it is blank or fails its pattern; a blank field gets its "required" message; a filled email gets "Email is invalid" exactly when `\S+@\S+\.\S+` matches nowhere in it, and a filled phone "Phone number is invalid" exactly when the anchored pattern does not match it |
| ContactForm.Validate | contact-list-app/src/components/AddContactForm.jsx:18-39 | the error object has a key for exactly the fields that are blank or fail their pattern: "Name is required" for the name, and for email and phone the "required" message when blank and the "invalid" one otherwise |
| ContactForm.ValidateFieldwise | contact-list-app/src/components/AddContactForm.jsx:18-36 | each field's entry depends on that field alone |
| ContactForm.NoErrorsIff | contact-list-app/src/components/AddContactForm.jsx:37-38 | the error object is empty exactly when every field passes |
| ContactForm.ValidIff | contact-list-app/src/components/AddContactForm.jsx:18-38 | the form is valid iff no field is blank, the email pattern matches somewhere and the phone pattern matches the whole string |
| ContactForm.EmptyDraftExample | contact-list-app/src/components/AddContactForm.jsx:18-38 | an empty draft gets exactly the three "required" messages |
| ContactForm.ValidDraftExample | contact-list-app/src/components/AddContactForm.jsx:18-38 | `{A, a@b.com, 123-456}` gets no errors |
| ContactForm.InvalidEmailExample | contact-list-app/src/components/AddContactForm.jsx:18-38 | `{A, bad, 123}` gets only "Email is invalid" |
| ContactForm.Submit | contact-list-app/src/components/AddContactForm.jsx:41-55 | submit replaces the error object by the validator's result and passes the unchanged draft on iff that result is empty |
| ContactForm.SubmitFreshShowsRequired | contact-list-app/src/components/AddContactForm.jsx:10-55 | submitting the form as it first appears shows the three "required" messages and sends nothing |
| ContactForm.Change | contact-list-app/src/components/AddContactForm.jsx:57-71 | an edit overwrites only the named field and blanks only that field's message, only when one was set |
| ContactForm.ChangeHidesOnlyThatField | contact-list-app/src/components/AddContactForm.jsx:64-70 | after an edit the shown messages are the old ones minus the edited field |
| ContactStore.ValidHasUniqueIds | backend/main.py:21 | rows in increasing id order have unique ids |
| ContactStore.NextId | backend/main.py:21 | a new row's id is positive and larger than every id in the table |
| ContactStore.Window | backend/main.py:101 | offset and limit return the rows from the offset on, in order: `limit` of them when that many remain, otherwise all remaining ones |
| ContactStore.WindowsTile | backend/main.py:101 | consecutive pages concatenate to the combined page |
| ContactStore.Matching | backend/main.py:94-99 | with a truthy search, exactly the table rows whose name, email or phone contains it; otherwise every row; in table order |
| ContactStore.MatchingMultiplicity | backend/main.py:94-99 | the search filter keeps every copy of a matching row and none of another |
| ContactStore.GetContacts | backend/main.py:89-102 | the list is the page `[skip, skip + limit)` of the matching rows, position by position and of exact length; every listed row is a matching table row, in table order |
| ContactStore.DefaultListIsFirstPage | backend/main.py:90-101 | with the default offset 0 and limit 100 and no search, the list is the first 100 rows, or the whole table when it is no longer |
| ContactStore.SearchContacts | backend/main.py:164-172 | search returns exactly the table rows whose name, email or phone contains the term |
| ContactStore.SearchIsUnpagedList | backend/main.py:164-172 | search returns what the list route returns for the same term from offset 0 with no limit |
| ContactStore.GetContact | backend/main.py:104-110 | the row with that id, or 404 "Contact not found" exactly when there is none |
| ContactStore.DefaultAvatar | backend/main.py:121-122 | the generated avatar URL is the fixed prefix, the name with every space replaced by `+`, and the fixed suffix |
| ContactStore.DefaultAvatarDeterminesName | backend/main.py:122 | names without `+` get different avatar URLs |
| ContactStore.AvatarFor | backend/main.py:121-122 | the stored avatar is never empty: the truthy avatar sent, or else the generated URL for the name |
| ContactStore.CreateContact | backend/main.py:112-128 | 400 "Email already exists" exactly when the email is in use; otherwise exactly one row with a fresh id and the given fields is appended |
| ContactStore.CreatePreservesValid | backend/main.py:112-128 | a create keeps ids increasing and emails unique |
| ContactStore.ApplyPatch | backend/main.py:143-146 | sent fields are overwritten and unsent fields keep their value |
| ContactStore.UpdateAsWritten | backend/main.py:133-146 | the handler as written, up to the commit: 404 exactly for a missing id; 400 exactly when the new email is truthy, differs from the current one and is in use; otherwise the row patched with the sent fields |
| ContactStore.UpdateAsWrittenDuplicatesEmptyEmail | backend/main.py:138-141 | as written, on a valid table an update sending email "" passes the application check and would put the same email on two rows, which only the database's unique constraint then stops |
| ContactStore.UpdateContact | backend/main.py:130-151 | the corrected handler (see "## Findings"): 404 exactly for a missing id; 400 exactly when a sent email differs from the current one and is in use; otherwise only that row changes, to the patched version of itself |
| ContactStore.UpdateContactRejectsEmptyEmailDuplicate | backend/main.py:138-141 | the corrected check answers 400 on the counterexample |
| ContactStore.UpdatePreservesValid | backend/main.py:130-151 | a successful update keeps ids increasing and emails unique |
| ContactStore.DeleteContact | backend/main.py:153-162 | 404 exactly for a missing id; a present id always succeeds, leaving the table minus that id |
| ContactStore.DeleteRemovesOne | backend/main.py:153-162 | on a valid table a delete removes exactly one row and keeps the table valid |
| ServerRoutes.SegmentAfter | backend/main.py:104 | a path parameter is one non-empty segment without `/` |
| ServerRoutes.Route | backend/main.py:81-172 | list and create are reached exactly by GET and POST on `/contacts`; the id handlers only by their own method on one segment after `/contacts/` |
| ServerRoutes.IdRouteParses | backend/main.py:104-105 | an id route gets the integer the segment spells, or 422 when it spells none |
| ServerRoutes.SearchRouteReached | backend/main.py:164-165 | a search target is never taken by the id route |
| ServerRoutes.HealthRouteReached | backend/main.py:85-86 | a GET of `/health` reaches the health handler |
| ServerRoutes.EmptySearchNoRoute | backend/main.py:104-165 | `/contacts/search/` with no term has no segment for either path parameter and reaches no route |
| ApiClient.GetContactsCall | contact-list-app/src/services/api.js:30-38 | a falsy search targets `/contacts`; a truthy one targets `/contacts?search=` plus the encoded term |
| ApiClient.ContactPath | contact-list-app/src/services/api.js:41 | a contact's endpoint is `/contacts/` followed by a non-empty id |
| ApiClient.SearchContactsCall | contact-list-app/src/services/api.js:64-66 | search is a request of `/contacts/search/` followed by exactly the encoded term, with no options |
| ApiClient.HealthCheckCall | contact-list-app/src/services/api.js:69-71 | the health check is a request of `/health` with no options |
| ApiClient.EndpointTable | contact-list-app/src/services/api.js:30-71 | list, get, search and health are bodiless GETs; create is a POST of `/contacts` with the JSON body, update a PUT of `/contacts/{id}` with the JSON body, delete a DELETE of `/contacts/{id}` |
| ApiClient.ContactPathInjective | contact-list-app/src/services/api.js:40-62 | different ids give different endpoints |
| ApiClient.MergedHeaders | contact-list-app/src/services/api.js:7-10 | the merged headers are the JSON content type plus the caller's, and the caller's win |
| ApiClient.ConfigOf | contact-list-app/src/services/api.js:6-12 | without caller headers the config sends the JSON content type; with them it sends exactly the caller's headers |
| ApiClient.ContentTypeSentIff | contact-list-app/src/services/api.js:6-12 | the content type is sent iff the caller gives no headers or gives that one |
| ApiClient.CallerHeadersDropContentType | contact-list-app/src/services/api.js:6-12 | caller headers without a content type replace the merged object, so none is sent |
| ApiClient.OperationsSendJson | contact-list-app/src/services/api.js:30-71 | each of the seven operations, the list call included, sends exactly the JSON content-type header |
| ApiClient.UrlOf | contact-list-app/src/services/api.js:1-5 | the URL is the base followed by the endpoint |
| ApiClient.TargetOfUrl | contact-list-app/src/services/api.js:5 | the server at the base URL receives exactly the endpoint |
| ApiClient.ErrorMessage | contact-list-app/src/services/api.js:18-19 | the message is never empty; it is the detail when truthy; otherwise it starts with "HTTP error! status: " and the status parses back from it |
| ApiClient.FallbackMessagesDiffer | contact-list-app/src/services/api.js:19 | without a detail, different statuses give different messages |
| ApiClient.UnparsableUsesFallback | contact-list-app/src/services/api.js:18 | an unparsable error body counts as `{}`, so the status message is used |
| ApiClient.Settle | contact-list-app/src/services/api.js:14-26 | an ok, parsable response gives its body; a network error and the parse error of an ok response are re-raised unchanged; a non-ok response raises `ErrorMessage` of its status and body, which is never empty |
| ApiClient.SettleErrorMessage | contact-list-app/src/services/api.js:17-19 | a non-ok response raises its truthy detail, or "HTTP error! status: " and the status |
| Wiring.ContactPathRoutes | backend/main.py:104-162 | a GET, PUT or DELETE on a contact's endpoint reaches the handler for that method with the same id; POST gets 405 |
| Wiring.ClientCallsReachHandlers | contact-list-app/src/services/api.js:29-62 | get, update, delete, create and list reach the server handler of the same name with the same id, and the list carries its search as the query |
| Wiring.SearchAndHealthReachHandlers | contact-list-app/src/services/api.js:64-71 | the health call reaches the health handler; the search call reaches the search handler with the encoded term, or no route for an empty encoding |
| Wiring.LoadShowsFirstPage | contact-list-app/src/App.jsx:23-36 | the screen's load reaches the list handler with no query, so it shows the first 100 rows of the table, all of them when there are at most 100 |
| Wiring.FailedLoadShowsError | contact-list-app/src/App.jsx:28-36 | a load answered with a non-ok response ends showing only the error panel, with the list kept |
| Wiring.CreateKeepsClientInStep | contact-list-app/src/App.jsx:56-60 | if the client list and the server table hold the same contacts, they still do after an accepted create: the new one first on the client and last on the server |
| Wiring.DeleteKeepsClientInStep | contact-list-app/src/App.jsx:67-70 | if the client list and the server table hold the same contacts, they still do after an accepted delete; if they are equal, they stay equal |

## Left out

- Case mapping: `toLowerCase` is modelled for ASCII letters only. Full Unicode case mapping is not modelled.
- White space: JavaScript white space (for `trim` and `\s`) is the ECMAScript WhiteSpace and LineTerminator set, written out character by character.
- Asynchronous timing is not modelled:
  - the one-second simulated delay;
  - the `isSubmitting` flag;
  - the un-awaited `onAddContact`;
  - overlapping requests;
  - the render between a state change and the filter effect.

  Each transition is taken at the point its request settles.
- The retry button is not modelled, because it reloads the page. A reload is modelled as a fresh load from the initial state.
- Presentational components are not modelled, because they carry no data logic: `ContactItem`, `ContactList`, `SearchBar`, `EmptyState`, `ErrorMessage` and `LoadingSpinner`.
- Foreign calls are parameters: `fetch`, `JSON.stringify`, the `URLSearchParams` and `encodeURIComponent` encodings, and SQL `contains`. The exact `LIKE` semantics behind `contains` are not modelled.
- ServerRoutes.Route: these server behaviours are not modelled:
  - percent-decoding of the path and the query;
  - parsing of the query string into `skip`, `limit` and `search`;
  - the trailing-slash redirect.

  The list handler receives the raw query string.
- Wiring.LoadShowsFirstPage: "the first 100 rows" rests on SQLite's table scan returning rows in id order, since the list query has no `ORDER BY`. It covers only the load the screen makes, with no query, where the list handler's defaults apply. Since query parsing is not modelled, an explicit `skip` or `limit` is not connected to the handler's arguments.
- Wiring.SearchAndHealthReachHandlers: it assumes the encoded term contains no `/` and no `?`, as `encodeURIComponent` guarantees; the encoding itself is a parameter. For an empty term the trailing-slash redirect is not modelled, so the model answers no route.
- ServerRoutes.IdRouteParses: an id segment is parsed as an optional `-` and decimal digits. Pydantic's other lenient integer forms are not modelled.
- ApiClient.Settle: `detail` is modelled as a string or absent. A non-string detail, such as the list FastAPI sends with a 422, is not modelled.
- ContactStore.CreateContact: these are not modelled:
  - request-body validation;
  - `IntegrityError` paths;
  - sessions;
  - the `created_at` and `updated_at` timestamps.
- ContactStore.UpdateAsWritten: the unique email constraint (backend/main.py:23) failing the commit with an `IntegrityError`, answered as 500, is not modelled. The member returns the table the commit would attempt to write.
- ContactStore.UpdateContact: an update field sent explicitly as `null` is not modelled. Such a field is treated as not sent.
- The root and health handlers are reached by `ServerRoutes.Route`, but their bodies are not modelled. The health body holds a timestamp.
- Logging is not modelled: the `console.error` calls in the API client's request failure path and in the screen's create and delete failure handlers have no effect on state.
- CORS is not modelled. Startup seeding is not modelled either: an empty table gets five sample rows.
- ContactStore.NextId: the id is the largest id plus one. SQLite's rowid rule when the largest rowid is already the maximum 64-bit value is not modelled.

## Findings

| source | as written | input that shows it | evidently intended | confidence | as-written member | corrected member |
|---|---|---|---|---|---|---|
| backend/main.py:138 | the duplicate-email check runs only for a truthy email, so an email of `""` skips it | a table with rows `(1, email "")` and `(2, email "b@x.io")`, then `PUT /contacts/2` with `{"email": ""}` | 400 "Email already exists", as for any other email already in use. As written, the application check passes and leaves two rows with email `""`; the database's `unique` constraint then fails the commit with an unhandled error (500) | not executed | ContactStore.UpdateAsWrittenDuplicatesEmptyEmail | ContactStore.UpdatePreservesValid |

=== FILE: api.dfy ===
/**
 * The browser's API client (contact-list-app/src/services/api.js): which
 * endpoint and method each operation uses, the URL and fetch options that
 * `request` builds from them, and how `request` turns what `fetch` yields
 * into a value or a thrown error message.
 */
module ApiClient {

  import opened Wrappers
  import opened Text

  const BaseUrl := "http://localhost:8000"

  datatype Method = Get | Post | Put | Delete

  type Headers = map<string, string>

  const JsonHeaders: Headers := map["Content-Type" := "application/json"]

  /** The `options` argument of `request`; `None` for a key the caller
      does not set. */
  datatype Options = Options(verb: Option<Method>, headers: Option<Headers>, body: Option<string>)

  const NoOptions := Options(None, None, None)

  /** An endpoint and the options one client operation passes to
      `request`. */
  datatype Call = Call(endpoint: string, options: Options)

  // ---------------------------------------------------------------------
  // The operations

  /** `getContacts(search)`: a truthy search becomes the single query
      parameter `search`, with `encode` standing for the form encoding of
      `URLSearchParams`; otherwise the bare list endpoint. */
  function GetContactsCall(search: Option<string>, encode: string -> string): (c: Call)
    ensures c.options == NoOptions
    ensures search.None? || search.value == "" ==> c.endpoint == "/contacts"
    ensures search.Some? && search.value != "" ==>
      c.endpoint == "/contacts?search=" + encode(search.value)
  {
    var query := if search.Some? && search.value != "" then "search=" + encode(search.value) else "";
    Call(if query != "" then "/contacts?" + query else "/contacts", NoOptions)
  }

  /** The endpoint of one contact: `/contacts/` and the id in decimal. */
  function ContactPath(id: int): (p: string)
    ensures |p| > |"/contacts/"|
    ensures p[..|"/contacts/"|] == "/contacts/"
  {
    "/contacts/" + IntToDecimal(id)
  }

  function GetContactCall(id: int): Call {
    Call(ContactPath(id), NoOptions)
  }

  /** `createContact(data)`: POST of the serialised data; `toJson` stands
      for `JSON.stringify`. */
  function CreateContactCall<T>(data: T, toJson: T -> string): Call {
    Call("/contacts", Options(Some(Post), None, Some(toJson(data))))
  }

  function UpdateContactCall<T>(id: int, data: T, toJson: T -> string): Call {
    Call(ContactPath(id), Options(Some(Put), None, Some(toJson(data))))
  }

  function DeleteContactCall(id: int): Call {
    Call(ContactPath(id), Options(Some(Delete), None, None))
  }

  /** `searchContacts(term)`: a GET of `/contacts/search/` followed by the
      encoded term; `encodeComponent` stands for `encodeURIComponent`. */
  function SearchContactsCall(term: string, encodeComponent: string -> string): (c: Call)
    ensures c.options == NoOptions
    ensures |c.endpoint| == |"/contacts/search/"| + |encodeComponent(term)|
    ensures "/contacts/search/" <= c.endpoint
    ensures c.endpoint[|"/contacts/search/"|..] == encodeComponent(term)
  {
    Call("/contacts/search/" + encodeComponent(term), NoOptions)
  }

  /** `healthCheck()`: a GET of `/health` with no options. */
  function HealthCheckCall(): (c: Call)
    ensures c.options == NoOptions && c.endpoint == "/health"
  {
    Call("/health", NoOptions)
  }

  /** The method `fetch` uses: the one in the options, GET by default. */
  function MethodOf(c: Call): Method {
    if c.options.verb.Some? then c.options.verb.value else Get
  }

  /** The endpoint and method table of the client: what each operation
      sends, and that only create and update send a body. */
  lemma EndpointTable<T>(id: int, data: T, toJson: T -> string, search: Option<string>,
                         encode: string -> string, term: string, encodeComponent: string -> string)
    ensures MethodOf(GetContactsCall(search, encode)) == Get
    ensures GetContactsCall(search, encode).options.body.None?
    ensures var c := SearchContactsCall(term, encodeComponent);
      c.endpoint == "/contacts/search/" + encodeComponent(term) && MethodOf(c) == Get && c.options.body.None?
    ensures var c := HealthCheckCall(); c.endpoint == "/health" && MethodOf(c) == Get && c.options.body.None?
    ensures var c := GetContactCall(id); c.endpoint == ContactPath(id) && MethodOf(c) == Get && c.options.body.None?
    ensures var c := CreateContactCall(data, toJson);
      c.endpoint == "/contacts" && MethodOf(c) == Post && c.options.body == Some(toJson(data))
    ensures var c := UpdateContactCall(id, data, toJson);
      c.endpoint == ContactPath(id) && MethodOf(c) == Put && c.options.body == Some(toJson(data))
    ensures var c := DeleteContactCall(id);
      c.endpoint == ContactPath(id) && MethodOf(c) == Delete && c.options.body.None?
  {
  }

  /** Different ids give different endpoints. */
  lemma ContactPathInjective(i: int, j: int)
    requires ContactPath(i) == ContactPath(j)
    ensures i == j
  {
    var n := |"/contacts/"|;
    assert IntToDecimal(i) == ContactPath(i)[n..];
    assert IntToDecimal(j) == ContactPath(j)[n..];
    IntToDecimalInjective(i, j);
  }

  // ---------------------------------------------------------------------
  // What `request` hands to `fetch`

  /** The fetch options: `{headers: {...}, ...options}`. */
  datatype Config = Config(verb: Option<Method>, headers: Headers, body: Option<string>)

  /** `{'Content-Type': 'application/json', ...options.headers}`: the
      caller's headers win on a clash. */
  function MergedHeaders(o: Options): (h: Headers)
    ensures h.Keys == JsonHeaders.Keys + (if o.headers.Some? then o.headers.value.Keys else {})
    ensures o.headers.Some? ==> forall k :: k in o.headers.value ==> h[k] == o.headers.value[k]
    ensures o.headers.None? || "Content-Type" !in o.headers.value ==>
      h["Content-Type"] == "application/json"
  {
    if o.headers.Some? then JsonHeaders + o.headers.value else JsonHeaders
  }

  /** The config object: the merged headers first, then every key of the
      options spread over it, so a caller's `headers` key replaces the
      merged object. */
  function ConfigOf(o: Options): (cfg: Config)
    ensures cfg.verb == o.verb && cfg.body == o.body
    ensures o.headers.None? ==> cfg.headers == JsonHeaders
    ensures o.headers.Some? ==> cfg.headers == o.headers.value
  {
    var merged := MergedHeaders(o);
    Config(o.verb, if o.headers.Some? then o.headers.value else merged, o.body)
  }

  /** The JSON content type is sent exactly when the caller gives no
      headers of its own or gives that one: the merge never adds it to a
      caller's headers. */
  lemma ContentTypeSentIff(o: Options)
    ensures "Content-Type" in ConfigOf(o).headers <==>
      o.headers.None? || "Content-Type" in o.headers.value
    ensures o.headers.None? ==> ConfigOf(o).headers["Content-Type"] == "application/json"
  {
  }

  /** A caller that passes `{Accept: ...}` sends no content type at all,
      although the merged object had one. */
  lemma CallerHeadersDropContentType()
    ensures var o := Options(None, Some(map["Accept" := "application/json"]), None);
      && "Content-Type" in MergedHeaders(o)
      && "Content-Type" !in ConfigOf(o).headers
  {
  }

  /** Every operation of the client sends the JSON content type, since none
      of them passes headers. */
  lemma OperationsSendJson<T>(id: int, data: T, toJson: T -> string, search: Option<string>,
                              encode: string -> string, term: string, encodeComponent: string -> string)
    ensures ConfigOf(GetContactsCall(search, encode).options).headers == JsonHeaders
    ensures ConfigOf(SearchContactsCall(term, encodeComponent).options).headers == JsonHeaders
    ensures ConfigOf(HealthCheckCall().options).headers == JsonHeaders
    ensures ConfigOf(GetContactCall(id).options).headers == JsonHeaders
    ensures ConfigOf(CreateContactCall(data, toJson).options).headers == JsonHeaders
    ensures ConfigOf(UpdateContactCall(id, data, toJson).options).headers == JsonHeaders
    ensures ConfigOf(DeleteContactCall(id).options).headers == JsonHeaders
  {
  }

  /** The URL `request` fetches. */
  function UrlOf(endpoint: string): (url: string)
    ensures |url| == |BaseUrl| + |endpoint|
    ensures url[..|BaseUrl|] == BaseUrl
    ensures url[|BaseUrl|..] == endpoint
  {
    BaseUrl + endpoint
  }

  /** What the server at the base URL sees of a URL: the rest after the
      base, if the URL starts with it. */
  function Target(url: string): (r: Option<string>)
    ensures r.Some? <==> BaseUrl <= url
  {
    if BaseUrl <= url then Some(url[|BaseUrl|..]) else None
  }

  /** The server at the base URL receives exactly the endpoint, and so
      different endpoints give different URLs. */
  lemma TargetOfUrl(endpoint: string)
    ensures Target(UrlOf(endpoint)) == Some(endpoint)
  {
    assert BaseUrl <= UrlOf(endpoint);
  }

  // ---------------------------------------------------------------------
  // What `request` makes of the response

  /** What `response.json()` gives: a parse failure with its message, or
      the data with its `detail` field when that is a string. */
  datatype Body<D> = Unparsable(message: string) | Parsed(data: D, detail: Option<string>)

  /** What `fetch` settles to: rejected with a message, or a response. */
  datatype Outcome<D> = NetworkError(message: string) | Response(ok: bool, status: int, body: Body<D>)

  const StatusPrefix := "HTTP error! status: "

  /** The detail of an error body when it is truthy; an unparsable body
      counts as `{}`. */
  function Detail<D>(body: Body<D>): Option<string> {
    if body.Parsed? && body.detail.Some? && body.detail.value != "" then body.detail else None
  }

  /** The message of the error thrown for a response that is not ok:
      `detail || "HTTP error! status: " + status`. */
  function ErrorMessage<D>(status: int, body: Body<D>): (m: string)
    ensures m != ""
    ensures Detail(body).Some? ==> m == Detail(body).value
    ensures Detail(body).None? ==>
      && StatusPrefix <= m
      && ParseInt(m[|StatusPrefix|..]) == Some(status)
  {
    if Detail(body).Some? then Detail(body).value
    else
      IntRoundTrip(status);
      assert (StatusPrefix + IntToDecimal(status))[|StatusPrefix|..] == IntToDecimal(status);
      StatusPrefix + IntToDecimal(status)
  }

  /** Whatever the body, the status of a response without a truthy
      detail can be read back from the message, so two such responses
      with different statuses never share a message. */
  lemma FallbackMessagesDiffer<D>(s1: int, b1: Body<D>, s2: int, b2: Body<D>)
    requires Detail(b1).None? && Detail(b2).None?
    requires s1 != s2
    ensures ErrorMessage(s1, b1) != ErrorMessage(s2, b2)
  {
  }

  /** An unparsable error body, like one without a detail, gives the
      status message. */
  lemma UnparsableUsesFallback<D>(status: int, body: Body<D>)
    requires body.Unparsable?
    ensures ErrorMessage(status, body) == StatusPrefix + IntToDecimal(status)
  {
  }

  /** `request` after `fetch` settled: the parsed body of an ok response;
      otherwise the error it throws, whose message is the rejection's or
      the parse failure's unchanged, or `ErrorMessage` for a response that
      is not ok. */
  function Settle<D>(outcome: Outcome<D>): (r: Result<D, string>)
    ensures r.Ok? <==> outcome.Response? && outcome.ok && outcome.body.Parsed?
    ensures r.Ok? ==> r.value == outcome.body.data
    ensures outcome.NetworkError? ==> r == Err(outcome.message)
    ensures outcome.Response? && outcome.ok && outcome.body.Unparsable? ==> r == Err(outcome.body.message)
    ensures outcome.Response? && !outcome.ok ==> r == Err(ErrorMessage(outcome.status, outcome.body))
    ensures outcome.Response? && !outcome.ok ==> r.Err? && r.error != ""
  {
    match outcome
    case NetworkError(m) => Err(m)
    case Response(ok, status, body) =>
      if !ok then Err(ErrorMessage(status, body))
      else if body.Unparsable? then Err(body.message)
      else Ok(body.data)
  }

  /** A response that is not ok is reported with its detail when the
      server sent one, and with its status otherwise. */
  lemma SettleErrorMessage<D>(status: int, body: Body<D>)
    ensures Detail(body).Some? ==> Settle(Response(false, status, body)) == Err(Detail(body).value)
    ensures Detail(body).None? ==>
      Settle(Response(false, status, body)) == Err(StatusPrefix + IntToDecimal(status))
  {
  }
}

=== FILE: app.dfy ===
/**
 * The screen controller of the contact list (App.jsx): the search filter,
 * the state record with its transitions (load, search, create, delete,
 * form open/close) and the choice of what the main card renders.
 */
module App {

  import opened Wrappers
  import opened Text
  import opened Seqs
  import opened Contacts

  // ---------------------------------------------------------------------
  // Search filter

  /** The test of the filter effect: the lower-cased name or email contains
      the lower-cased term, or the phone contains the term as typed. The
      term is not trimmed here. */
  predicate MatchesTerm(c: Contact, term: string) {
    || Contains(Lower(c.name), Lower(term))
    || Contains(Lower(c.email), Lower(term))
    || Contains(c.phone, term)
  }

  function Matcher(term: string): Contact -> bool {
    (c: Contact) => MatchesTerm(c, term)
  }

  /** The filtered list for a search term: the whole list when the term is
      blank, otherwise the matching contacts in order. */
  function FilterContacts(contacts: seq<Contact>, term: string): (r: seq<Contact>)
    ensures |r| <= |contacts|
    ensures Blank(term) ==> r == contacts
    ensures forall c :: c in r ==> c in contacts && (!Blank(term) ==> MatchesTerm(c, term))
  {
    if Blank(term) then contacts else Keep(contacts, Matcher(term))
  }

  /** The filter keeps every copy of a shown contact and no copy of a
      hidden one, so duplicates are neither merged nor multiplied. */
  lemma FilterMultiplicity(contacts: seq<Contact>, term: string, c: Contact)
    ensures multiset(FilterContacts(contacts, term))[c]
         == if Blank(term) || MatchesTerm(c, term) then multiset(contacts)[c] else 0
  {
    if !Blank(term) {
      KeepMultiplicity(contacts, Matcher(term), c);
    }
  }

  /** An empty or all-whitespace term leaves the list as it is. */
  lemma BlankTermKeepsAll(contacts: seq<Contact>, term: string)
    requires AllSpace(term)
    ensures FilterContacts(contacts, term) == contacts
  {
  }

  /** The filtered list is always an order-preserving subsequence. */
  lemma FilterIsSubsequence(contacts: seq<Contact>, term: string)
    ensures SubsequenceOf(FilterContacts(contacts, term), contacts)
  {
    if Blank(term) {
      SubsequenceOfSelf(contacts);
    } else {
      KeepIsSubsequence(contacts, Matcher(term));
    }
  }

  /** For a term that is not blank, a contact is shown exactly when it is in
      the list and matches the term. */
  lemma FilterMembership(contacts: seq<Contact>, term: string, c: Contact)
    requires !AllSpace(term)
    ensures c in FilterContacts(contacts, term) <==> c in contacts && MatchesTerm(c, term)
  {
    KeepMembership(contacts, Matcher(term), c);
  }

  /** A contact that matches is never dropped, whatever the term. */
  lemma MatchingContactShown(contacts: seq<Contact>, term: string, c: Contact)
    requires c in contacts && MatchesTerm(c, term)
    ensures c in FilterContacts(contacts, term)
  {
    KeepMembership(contacts, Matcher(term), c);
  }

  /** With a term that is not blank, of two contacts where only the first
      matches, the filter keeps just the first. */
  lemma FilterKeepsFirstOfTwo(a: Contact, b: Contact, term: string)
    requires !Blank(term) && MatchesTerm(a, term) && !MatchesTerm(b, term)
    ensures FilterContacts([a, b], term) == [a]
  {
    var p := Matcher(term);
    assert Keep([b], p) == [] by {
      assert [b][1..] == [];
    }
    assert [a, b][1..] == [b];
    assert Keep([a, b], p) == [a] + Keep([b], p);
  }

  /** The search term "jane" is not blank and matches Jane Doe. */
  lemma JaneMatchesJane()
    ensures !Blank("jane")
    ensures MatchesTerm(Contact(1, "Jane Doe", "d@x.io", "555", ""), "jane")
  {
    assert !IsSpace("jane"[0]);
    assert Lower("jane") == "jane";
    assert Lower("Jane Doe") == "jane doe";
    assert "jane" <= Lower("Jane Doe");
  }

  /** The search term "jane" does not match John. */
  lemma JaneDoesNotMatchJohn()
    ensures !MatchesTerm(Contact(2, "John", "jo@x.io", "123", ""), "jane")
  {
    var john := Contact(2, "John", "jo@x.io", "123", "");
    assert !Contains(Lower(john.name), Lower("jane")) by {
      assert Lower("jane") == "jane";
      assert Lower("John") == "john";
      assert "john"[1] != "jane"[1];
      ContainsLonger("john"[1..], "jane");
    }
    assert !Contains(Lower(john.email), Lower("jane")) by {
      assert Lower("jane") == "jane";
      assert Lower("jo@x.io") == "jo@x.io";
      var e := "jo@x.io";
      assert e[1] != 'a' && e[1..][0] != 'j' && e[2..][0] != 'j' && e[3..][0] != 'j';
      assert e[1..][1..] == e[2..] && e[2..][1..] == e[3..];
      ContainsLonger(e[4..], "jane");
      assert e[3..][1..] == e[4..];
    }
    assert !Contains(john.phone, "jane") by {
      ContainsLonger("123", "jane");
    }
  }

  /** Searching "jane" over Jane Doe and John keeps only Jane Doe. */
  lemma SearchJaneExample()
    ensures
      var jane := Contact(1, "Jane Doe", "d@x.io", "555", "");
      var john := Contact(2, "John", "jo@x.io", "123", "");
      FilterContacts([jane, john], "jane") == [jane]
  {
    JaneMatchesJane();
    JaneDoesNotMatchJohn();
    FilterKeepsFirstOfTwo(Contact(1, "Jane Doe", "d@x.io", "555", ""), Contact(2, "John", "jo@x.io", "123", ""), "jane");
  }

  // ---------------------------------------------------------------------
  // Controller state

  /** The state hooks of the screen. `filteredContacts` is not stored: the
      filter effect recomputes it whenever the list or the term changes,
      so it is `Filtered(s)`. `error` is `None` for `null`. */
  datatype State = State(
    contacts: seq<Contact>,
    searchTerm: string,
    loading: bool,
    error: Option<string>,
    showAddForm: bool)

  function Filtered(s: State): seq<Contact> {
    FilterContacts(s.contacts, s.searchTerm)
  }

  /** JavaScript truthiness of `error`: set and not the empty string. */
  predicate ErrorShown(s: State) {
    s.error.Some? && s.error.value != ""
  }

  /** The state before the first render: empty list, empty term, loading. */
  const Initial := State([], "", true, None, false)

  /** Start of `loadContacts`: loading on, error cleared. */
  function StartLoad(s: State): (r: State)
    ensures r.loading && !ErrorShown(r) && r.error == None
    ensures r.contacts == s.contacts && r.searchTerm == s.searchTerm
    ensures Filtered(r) == Filtered(s) && r.showAddForm == s.showAddForm
    ensures Panels(r) == {Spinner}
  {
    s.(loading := true, error := None)
  }

  /** End of `loadContacts`: on success the list becomes the returned data;
      on failure the error holds the message and the list is kept. Loading
      is off either way. */
  function FinishLoad(s: State, outcome: Result<seq<Contact>, string>): (r: State)
    ensures !r.loading && r.searchTerm == s.searchTerm && r.showAddForm == s.showAddForm
    ensures outcome.Ok? ==> r.contacts == outcome.value && r.error == s.error
    ensures outcome.Ok? ==> Filtered(r) == FilterContacts(outcome.value, s.searchTerm)
    ensures outcome.Err? ==> r.contacts == s.contacts && r.error == Some(outcome.error)
    ensures outcome.Err? && outcome.error != "" ==> Panels(r) == {ErrorPanel}
  {
    match outcome
    case Ok(data) => s.(contacts := data, loading := false)
    case Err(message) => s.(error := Some(message), loading := false)
  }

  /** A load that starts from a blank term shows exactly the returned list. */
  lemma LoadShowsData(s: State, data: seq<Contact>)
    requires AllSpace(s.searchTerm)
    ensures var r := FinishLoad(StartLoad(s), Ok(data));
      && r.contacts == data && Filtered(r) == data && !r.loading && r.error == None
  {
  }

  /** The search box: only the term changes, and the filtered list follows
      it without touching the full list. */
  function SetSearchTerm(s: State, term: string): (r: State)
    ensures r.contacts == s.contacts && r.searchTerm == term
    ensures r.loading == s.loading && r.error == s.error && r.showAddForm == s.showAddForm
    ensures Filtered(r) == FilterContacts(s.contacts, term)
  {
    s.(searchTerm := term)
  }

  /** The add button: the form opens and nothing else changes, so the
      main card renders the same panel. */
  function OpenAddForm(s: State): (r: State)
    ensures r.showAddForm
    ensures r.contacts == s.contacts && r.searchTerm == s.searchTerm
    ensures r.loading == s.loading && r.error == s.error
    ensures Filtered(r) == Filtered(s) && Panels(r) == Panels(s)
  {
    s.(showAddForm := true)
  }

  /** The form's cancel: the form closes and nothing else changes. */
  function CloseAddForm(s: State): (r: State)
    ensures !r.showAddForm
    ensures r.contacts == s.contacts && r.searchTerm == s.searchTerm
    ensures r.loading == s.loading && r.error == s.error
    ensures Filtered(r) == Filtered(s) && Panels(r) == Panels(s)
  {
    s.(showAddForm := false)
  }

  /** `handleAddContact` after the create request settled: on success the
      created contact is prepended and the form closes; on failure nothing
      changes. */
  function ContactCreated(s: State, outcome: Result<Contact, string>): (r: State)
    ensures outcome.Ok? ==>
      && |r.contacts| == |s.contacts| + 1
      && r.contacts[0] == outcome.value
      && r.contacts[1..] == s.contacts
      && !r.showAddForm
      && r.searchTerm == s.searchTerm && r.loading == s.loading && r.error == s.error
    ensures outcome.Err? ==> r == s
  {
    match outcome
    case Ok(created) => s.(contacts := [created] + s.contacts, showAddForm := false)
    case Err(_) => s
  }

  /** After a successful create the filtered list is the old one, with the
      new contact in front when it passes the current search. */
  lemma CreatedContactFiltered(s: State, c: Contact)
    ensures Filtered(ContactCreated(s, Ok(c)))
         == (if Blank(s.searchTerm) || MatchesTerm(c, s.searchTerm) then [c] else []) + Filtered(s)
  {
    if !Blank(s.searchTerm) {
      KeepConcat([c], s.contacts, Matcher(s.searchTerm));
    }
  }

  /** `handleDeleteContact` after the delete request settled: on success
      every contact with that id goes and the others stay in order; on
      failure nothing changes. */
  function ContactDeleted(s: State, id: int, outcome: Result<(), string>): (r: State)
    ensures outcome.Ok? ==> r.contacts == WithoutId(s.contacts, id)
    ensures outcome.Ok? ==> forall c :: c in r.contacts ==> c.id != id
    ensures outcome.Err? ==> r == s
    ensures r.searchTerm == s.searchTerm && r.showAddForm == s.showAddForm
    ensures r.loading == s.loading && r.error == s.error
  {
    match outcome
    case Ok(_) => s.(contacts := WithoutId(s.contacts, id))
    case Err(_) => s
  }

  /** After a successful delete the filtered list is the old filtered list
      without that id: the deleted contact is gone from both lists. */
  lemma DeletedContactFiltered(s: State, id: int)
    ensures Filtered(ContactDeleted(s, id, Ok(()))) == WithoutId(Filtered(s), id)
    ensures forall c :: c in Filtered(ContactDeleted(s, id, Ok(()))) ==> c.id != id
  {
    if !Blank(s.searchTerm) {
      KeepCommute(s.contacts, OtherId(id), Matcher(s.searchTerm));
    }
  }

  // ---------------------------------------------------------------------
  // Events and rendering

  datatype Event =
    | LoadStarted
    | LoadFinished(loaded: Result<seq<Contact>, string>)
    | SearchChanged(term: string)
    | AddFormOpened
    | AddFormClosed
    | CreateFinished(created: Result<Contact, string>)
    | DeleteFinished(id: int, deleted: Result<(), string>)

  function Step(s: State, e: Event): State {
    match e
    case LoadStarted => StartLoad(s)
    case LoadFinished(o) => FinishLoad(s, o)
    case SearchChanged(t) => SetSearchTerm(s, t)
    case AddFormOpened => OpenAddForm(s)
    case AddFormClosed => CloseAddForm(s)
    case CreateFinished(o) => ContactCreated(s, o)
    case DeleteFinished(id, o) => ContactDeleted(s, id, o)
  }

  function Run(s: State, events: seq<Event>): State
    decreases |events|
  {
    if |events| == 0 then s else Run(Step(s, events[0]), events[1..])
  }

  datatype Panel = Spinner | ErrorPanel | NoMatches | NoContactsYet | ContactList

  /** The five guards of the main card, each taken as written: the spinner
      and the error panel test one flag each, the other three test both
      flags, the filtered length and the truthiness of the raw term. */
  function Panels(s: State): (p: set<Panel>)
    ensures p != {}
    ensures Spinner in p <==> s.loading
    ensures ErrorPanel in p <==> ErrorShown(s)
    ensures ContactList in p ==> |Filtered(s)| > 0
    ensures NoMatches in p ==> |Filtered(s)| == 0 && s.searchTerm != ""
    ensures NoContactsYet in p ==> |Filtered(s)| == 0 && s.searchTerm == ""
  {
    var ready := !s.loading && !ErrorShown(s);
    var n := |Filtered(s)|;
    (if s.loading then {Spinner} else {})
    + (if ErrorShown(s) then {ErrorPanel} else {})
    + (if ready && n == 0 && s.searchTerm != "" then {NoMatches} else {})
    + (if ready && n == 0 && s.searchTerm == "" then {NoContactsYet} else {})
    + (if ready && n > 0 then {ContactList} else {})
  }

  /** Loading and a shown error never coexist in a reachable state. */
  predicate Consistent(s: State) {
    !(s.loading && ErrorShown(s))
  }

  /** In a consistent state exactly one panel renders, and which one is
      decided by the flags, the filtered list and the term. */
  lemma ExactlyOnePanel(s: State)
    requires Consistent(s)
    ensures |Panels(s)| == 1
    ensures s.loading <==> Panels(s) == {Spinner}
    ensures ErrorShown(s) <==> Panels(s) == {ErrorPanel}
    ensures Panels(s) == {ContactList} <==> !s.loading && !ErrorShown(s) && |Filtered(s)| > 0
  {
    var n := |Filtered(s)|;
    if s.loading {
      assert Panels(s) == {Spinner};
    } else if ErrorShown(s) {
      assert Panels(s) == {ErrorPanel};
    } else if n > 0 {
      assert Panels(s) == {ContactList};
    } else if s.searchTerm != "" {
      assert Panels(s) == {NoMatches};
    } else {
      assert Panels(s) == {NoContactsYet};
    }
  }

  /** "No contacts found" under a term that is not blank means that no
      contact of the full list matches it. */
  lemma NoMatchesMeansNothingMatches(s: State)
    requires NoMatches in Panels(s)
    requires !AllSpace(s.searchTerm)
    ensures forall c :: c in s.contacts ==> !MatchesTerm(c, s.searchTerm)
  {
    forall c | c in s.contacts ensures !MatchesTerm(c, s.searchTerm) {
      KeepMembership(s.contacts, Matcher(s.searchTerm), c);
    }
  }

  lemma StepPreservesConsistent(s: State, e: Event)
    requires Consistent(s)
    ensures Consistent(Step(s, e))
  {
  }

  /** Every state reached from the initial one by any sequence of events
      renders exactly one panel. */
  lemma {:induction false} ReachableRendersOnePanel(s: State, events: seq<Event>)
    requires Consistent(s)
    ensures Consistent(Run(s, events))
    ensures |Panels(Run(s, events))| == 1
    decreases |events|
  {
    if |events| == 0 {
      ExactlyOnePanel(s);
    } else {
      StepPreservesConsistent(s, events[0]);
      ReachableRendersOnePanel(Step(s, events[0]), events[1..]);
    }
  }

  /** A failed first load shows the error; reloading the page and loading
      again successfully shows the returned list. */
  lemma LoadFailureThenRetry(message: string, data: seq<Contact>)
    requires message != "" && |data| > 0
    ensures Panels(Run(Initial, [LoadStarted, LoadFinished(Err(message))])) == {ErrorPanel}
    ensures var r := Run(Initial, [LoadStarted, LoadFinished(Ok(data))]);
      Panels(r) == {ContactList} && Filtered(r) == data
  {
    var failed := [LoadStarted, LoadFinished(Err(message))];
    assert failed[1..] == [LoadFinished(Err(message))] && failed[1..][1..] == [];
    assert Run(Initial, failed) == Run(FinishLoad(StartLoad(Initial), Err(message)), []);
    var loaded := [LoadStarted, LoadFinished(Ok(data))];
    assert loaded[1..] == [LoadFinished(Ok(data))] && loaded[1..][1..] == [];
    assert Run(Initial, loaded) == Run(FinishLoad(StartLoad(Initial), Ok(data)), []);
    var r := FinishLoad(StartLoad(Initial), Ok(data));
    LoadShowsData(Initial, data);
    ExactlyOnePanel(r);
  }
}

=== FILE: contacts.dfy ===
/**
 * The contact record shared by the server (the `contacts` table of
 * backend/main.py) and the browser client (the JSON objects App.jsx holds),
 * and the operations by id that both sides perform on a list of them.
 */
module Contacts {

  import opened Wrappers
  import opened Seqs

  /** One contact. The creation and update timestamps are not modelled. */
  datatype Contact = Contact(id: int, name: string, email: string, phone: string, avatar: string)

  /** No two contacts of the list share an id. */
  ghost predicate UniqueIds(s: seq<Contact>) {
    forall i, j :: 0 <= i < j < |s| ==> s[i].id != s[j].id
  }

  ghost predicate HasId(s: seq<Contact>, id: int) {
    exists i :: 0 <= i < |s| && s[i].id == id
  }

  /** The test `c.id !== id` of the client and the server's row selection. */
  function OtherId(id: int): Contact -> bool {
    (c: Contact) => c.id != id
  }

  /** `list.filter(c => c.id !== id)`: every contact with a different id,
      in order, and none with this id. */
  function WithoutId(s: seq<Contact>, id: int): (r: seq<Contact>)
    ensures forall c :: c in r <==> c in s && c.id != id
  {
    KeepMembershipAll(s, OtherId(id));
    Keep(s, OtherId(id))
  }

  /** Removing by id keeps every copy of a contact with another id and no
      copy of one with that id. */
  lemma WithoutIdMultiplicity(s: seq<Contact>, id: int, c: Contact)
    ensures multiset(WithoutId(s, id))[c] == if c.id != id then multiset(s)[c] else 0
  {
    KeepMultiplicity(s, OtherId(id), c);
  }

  /** Removing by id keeps the remaining contacts in their original order. */
  lemma WithoutIdIsSubsequence(s: seq<Contact>, id: int)
    ensures SubsequenceOf(WithoutId(s, id), s)
  {
    KeepIsSubsequence(s, OtherId(id));
  }

  /** Removing an id that is absent changes nothing. */
  lemma WithoutAbsentId(s: seq<Contact>, id: int)
    requires !HasId(s, id)
    ensures WithoutId(s, id) == s
  {
    KeepAll(s, OtherId(id));
  }

  /** With unique ids, removing an id that is present removes exactly one
      contact. */
  lemma {:induction false} WithoutPresentId(s: seq<Contact>, id: int)
    requires UniqueIds(s)
    requires HasId(s, id)
    ensures |WithoutId(s, id)| == |s| - 1
    decreases |s|
  {
    if s[0].id == id {
      assert !HasId(s[1..], id);
      WithoutAbsentId(s[1..], id);
    } else {
      var i :| 0 <= i < |s| && s[i].id == id;
      assert s[1..][i - 1].id == id;
      WithoutPresentId(s[1..], id);
    }
  }

  /** First contact with this id (`query.filter(id == ...).first()`). */
  function FindById(s: seq<Contact>, id: int): (r: Option<Contact>)
    ensures r.Some? <==> HasId(s, id)
    ensures r.Some? ==> r.value in s && r.value.id == id
  {
    if |s| == 0 then None
    else if s[0].id == id then Some(s[0])
    else
      var r := FindById(s[1..], id);
      assert HasId(s, id) ==> HasId(s[1..], id) by {
        if HasId(s, id) {
          var i :| 0 <= i < |s| && s[i].id == id;
          assert s[1..][i - 1].id == id;
        }
      }
      assert HasId(s[1..], id) ==> HasId(s, id) by {
        if HasId(s[1..], id) {
          var i :| 0 <= i < |s[1..]| && s[1..][i].id == id;
          assert s[i + 1].id == id;
        }
      }
      r
  }
}

=== FILE: form.dfy ===
/**
 * The add-contact form (AddContactForm.jsx): the draft, the two patterns
 * behind the email and phone checks, the validator that maps a draft to
 * its field errors, submit gating and the per-field edit handler.
 */
module ContactForm {

  import opened Wrappers
  import opened Text

  datatype Field = Name | Email | Phone

  /** The form data `{name, email, phone}`. */
  datatype Draft = Draft(name: string, email: string, phone: string)

  function Get(d: Draft, f: Field): string {
    match f
    case Name => d.name
    case Email => d.email
    case Phone => d.phone
  }

  /** `{...prev, [name]: value}` */
  function Set(d: Draft, f: Field, v: string): (r: Draft)
    ensures Get(r, f) == v
    ensures forall g :: g != f ==> Get(r, g) == Get(d, g)
  {
    match f
    case Name => d.(name := v)
    case Email => d.(email := v)
    case Phone => d.(phone := v)
  }

  /** The error object: a message per field. A field whose message is the
      empty string is present but shows nothing. */
  type Errors = map<Field, string>

  const NameRequired := "Name is required"
  const EmailRequired := "Email is required"
  const EmailInvalid := "Email is invalid"
  const PhoneRequired := "Phone is required"
  const PhoneInvalid := "Phone number is invalid"

  // ---------------------------------------------------------------------
  // Email pattern `\S+@\S+\.\S+`, not anchored

  /** `s[from..to]` is a non-empty run of non-space characters. */
  predicate NonSpaceRun(s: string, from: int, to: int)
    requires 0 <= from <= to <= |s|
  {
    from < to && forall k :: from <= k < to ==> !IsSpace(s[k])
  }

  /** The pattern matches `s[a..e]` with the `@` at `at` and the `.` at
      `dot`. */
  ghost predicate EmailMatchAt(s: string, a: int, at: int, dot: int, e: int) {
    && 0 <= a < at < dot < e <= |s|
    && NonSpaceRun(s, a, at) && s[at] == '@'
    && NonSpaceRun(s, at + 1, dot) && s[dot] == '.'
    && NonSpaceRun(s, dot + 1, e)
  }

  /** The pattern read literally: somewhere in `s` a non-empty run of
      non-space characters, `@`, another such run, `.`, and a third run. */
  ghost predicate EmailRegex(s: string) {
    exists a, at, dot, e :: EmailMatchAt(s, a, at, dot, e)
  }

  /** The check the validator runs: an `@` with a non-space character
      before it, followed by non-space characters up to a `.` at least two
      places later, and a non-space character after that `.`. */
  predicate EmailShape(s: string) {
    exists at, dot | 0 <= at < |s| && 0 <= dot < |s| :: ShortestEmailAt(s, at, dot)
  }

  predicate ShortestEmailAt(s: string, at: int, dot: int) {
    && 1 <= at && at + 1 < dot < |s| - 1
    && s[at] == '@' && !IsSpace(s[at - 1])
    && s[dot] == '.' && !IsSpace(s[dot + 1])
    && NonSpaceRun(s, at + 1, dot)
  }

  /** The check accepts exactly the strings the pattern matches. */
  lemma EmailShapeIff(s: string)
    ensures EmailShape(s) <==> EmailRegex(s)
  {
    if EmailShape(s) {
      var at, dot :| ShortestEmailAt(s, at, dot);
      assert ShortestEmailAt(s, at, dot);
      assert NonSpaceRun(s, at - 1, at);
      assert NonSpaceRun(s, dot + 1, dot + 2);
      assert EmailMatchAt(s, at - 1, at, dot, dot + 2);
    }
    if EmailRegex(s) {
      var a, at, dot, e :| EmailMatchAt(s, a, at, dot, e);
      assert !IsSpace(s[at - 1]);
      assert !IsSpace(s[dot + 1]);
      assert ShortestEmailAt(s, at, dot);
    }
  }

  // ---------------------------------------------------------------------
  // Phone pattern `^\+?[\d\s\-\(\)]+$`, anchored

  /** One character of the class `[\d\s\-\(\)]`; `\d` is ASCII digits. */
  predicate PhoneChar(c: char) {
    IsDigit(c) || IsSpace(c) || c == '-' || c == '(' || c == ')'
  }

  /** `s[from..]` is non-empty and made only of class characters. */
  predicate ClassRun(s: string, from: int)
    requires 0 <= from <= |s|
  {
    from < |s| && forall k :: from <= k < |s| ==> PhoneChar(s[k])
  }

  /** The pattern read literally: the whole string is an optional `+`
      (zero or one of them) followed by one or more class characters. */
  ghost predicate PhoneRegex(s: string) {
    exists plus :: PhoneMatchFrom(s, plus)
  }

  ghost predicate PhoneMatchFrom(s: string, plus: int) {
    0 <= plus <= 1 && plus <= |s| && (plus == 1 ==> s[0] == '+') && ClassRun(s, plus)
  }

  /** The check the validator runs: after a leading `+`, if there is one,
      a non-empty rest made only of class characters. */
  predicate PhoneShape(s: string) {
    if |s| > 0 && s[0] == '+' then ClassRun(s, 1) else ClassRun(s, 0)
  }

  /** The check accepts exactly the strings the pattern matches: trying the
      optional `+` as absent never helps, as `+` is not a class character. */
  lemma PhoneShapeIff(s: string)
    ensures PhoneShape(s) <==> PhoneRegex(s)
  {
    if PhoneShape(s) {
      if |s| > 0 && s[0] == '+' {
        assert PhoneMatchFrom(s, 1);
      } else {
        assert PhoneMatchFrom(s, 0);
      }
    }
    if PhoneRegex(s) {
      var plus :| PhoneMatchFrom(s, plus);
      if plus == 0 {
        assert PhoneChar(s[0]);
      }
    }
  }

  /** A `+` is accepted only as the first character, and a lone `+` is
      rejected. */
  lemma PhonePlusOnlyFirst(s: string)
    ensures PhoneShape(s) ==> forall k :: 0 < k < |s| ==> s[k] != '+'
    ensures !PhoneShape("+")
  {
    if PhoneShape(s) {
      forall k | 0 < k < |s| ensures s[k] != '+' {
        assert PhoneChar(s[k]);
      }
    }
  }

  // ---------------------------------------------------------------------
  // Validation

  /** The message one field gets from `validateForm`, if any: a blank
      value is "required", a filled one that fails its pattern is
      "invalid". */
  function FieldError(f: Field, v: string): (r: Option<string>)
    ensures r.Some? ==> r.value != ""
    ensures r.Some? <==> match f
      case Name => Blank(v)
      case Email => Blank(v) || !EmailShape(v)
      case Phone => Blank(v) || !PhoneShape(v)
    ensures Blank(v) ==> r == Some(match f
      case Name => NameRequired
      case Email => EmailRequired
      case Phone => PhoneRequired)
    ensures f == Email && !Blank(v) ==> (r == Some(EmailInvalid) <==> !EmailRegex(v))
    ensures f == Phone && !Blank(v) ==> (r == Some(PhoneInvalid) <==> !PhoneRegex(v))
  {
    EmailShapeIff(v);
    PhoneShapeIff(v);
    match f
    case Name => if Blank(v) then Some(NameRequired) else None
    case Email =>
      if Blank(v) then Some(EmailRequired)
      else if !EmailShape(v) then Some(EmailInvalid) else None
    case Phone =>
      if Blank(v) then Some(PhoneRequired)
      else if !PhoneShape(v) then Some(PhoneInvalid) else None
  }

  /** `validateForm`: the error object has a key for each field that got a
      message, and no other. A blank field is "required"; a filled email or
      phone that its pattern rejects is "invalid". */
  function Validate(d: Draft): (errs: Errors)
    ensures Name in errs <==> Blank(d.name)
    ensures Email in errs <==> Blank(d.email) || !EmailShape(d.email)
    ensures Phone in errs <==> Blank(d.phone) || !PhoneShape(d.phone)
    ensures forall f :: f in errs ==> errs[f] != ""
    ensures Name in errs ==> errs[Name] == NameRequired
    ensures Email in errs ==> errs[Email] == if Blank(d.email) then EmailRequired else EmailInvalid
    ensures Phone in errs ==> errs[Phone] == if Blank(d.phone) then PhoneRequired else PhoneInvalid
  {
    var name := FieldError(Name, d.name);
    var email := FieldError(Email, d.email);
    var phone := FieldError(Phone, d.phone);
    (if name.Some? then map[Name := name.value] else map[])
    + (if email.Some? then map[Email := email.value] else map[])
    + (if phone.Some? then map[Phone := phone.value] else map[])
  }

  /** The validator is the field-by-field check put together: fields are
      validated independently of each other. */
  lemma ValidateFieldwise(d: Draft, f: Field)
    ensures f in Validate(d) <==> FieldError(f, Get(d, f)).Some?
    ensures f in Validate(d) ==> Validate(d)[f] == FieldError(f, Get(d, f)).value
  {
  }

  /** The error object is empty exactly when every field passes the checks
      the validator runs. */
  lemma NoErrorsIff(d: Draft)
    ensures Validate(d) == map[] <==>
      && !Blank(d.name)
      && !Blank(d.email) && EmailShape(d.email)
      && !Blank(d.phone) && PhoneShape(d.phone)
  {
    if Validate(d) != map[] {
      var f :| f in Validate(d);
    }
  }

  /** The form is valid (no key in the error object) exactly when the name
      is not blank, the email is not blank and matches its pattern, and the
      phone is not blank and matches its pattern. */
  lemma ValidIff(d: Draft)
    ensures |Validate(d)| == 0 <==>
      && !AllSpace(d.name)
      && !AllSpace(d.email) && EmailRegex(d.email)
      && !AllSpace(d.phone) && PhoneRegex(d.phone)
  {
    EmailShapeIff(d.email);
    PhoneShapeIff(d.phone);
    if |Validate(d)| == 0 {
      assert Name !in Validate(d) && Email !in Validate(d) && Phone !in Validate(d);
    } else {
      var f :| f in Validate(d);
    }
  }

  /** An empty draft gets exactly the three "required" messages. */
  lemma EmptyDraftExample()
    ensures Validate(Draft("", "", "")) ==
      map[Name := NameRequired, Email := EmailRequired, Phone := PhoneRequired]
  {
  }

  lemma SampleEmailPasses()
    ensures !Blank("a@b.com") && EmailShape("a@b.com")
  {
    NonSpaceStartNotBlank("a@b.com");
    assert ShortestEmailAt("a@b.com", 1, 3);
  }

  lemma SamplePhonePasses()
    ensures !Blank("123-456") && PhoneShape("123-456")
  {
    NonSpaceStartNotBlank("123-456");
    assert ClassRun("123-456", 0);
  }

  /** `{A, a@b.com, 123-456}` is valid. */
  lemma ValidDraftExample()
    ensures Validate(Draft("A", "a@b.com", "123-456")) == map[]
  {
    NonSpaceStartNotBlank("A");
    SampleEmailPasses();
    SamplePhonePasses();
    NoErrorsIff(Draft("A", "a@b.com", "123-456"));
  }

  /** "bad" has no `@`, so the email check fails. */
  lemma SampleEmailFails()
    ensures !Blank("bad") && !EmailShape("bad")
  {
    NonSpaceStartNotBlank("bad");
    forall at, dot | 0 <= at < 3 && 0 <= dot < 3 ensures !ShortestEmailAt("bad", at, dot) {
      assert "bad"[at] != '@';
    }
  }

  lemma ShortPhonePasses()
    ensures !Blank("123") && PhoneShape("123")
  {
    NonSpaceStartNotBlank("123");
    assert ClassRun("123", 0);
  }

  /** `{A, bad, 123}` gets only "Email is invalid". */
  lemma InvalidEmailExample()
    ensures Validate(Draft("A", "bad", "123")) == map[Email := EmailInvalid]
  {
    var d := Draft("A", "bad", "123");
    NonSpaceStartNotBlank("A");
    SampleEmailFails();
    ShortPhonePasses();
    var errs := Validate(d);
    ValidateFieldwise(d, Email);
    assert errs[Email] == EmailInvalid;
    assert Name !in errs;
    assert Phone !in errs;
    OnlyEmailEntry(errs);
  }

  /** An error object with only an email entry is the one-entry map. */
  lemma OnlyEmailEntry(m: Errors)
    requires Email in m && Name !in m && Phone !in m
    ensures m == map[Email := m[Email]]
  {
    forall f | f in m ensures f == Email {
      assert f != Name && f != Phone;
    }
  }

  // ---------------------------------------------------------------------
  // Form state, submit and edit

  datatype FormState = FormState(data: Draft, errors: Errors)

  /** A fresh form: empty draft, no errors. */
  const Fresh := FormState(Draft("", "", ""), map[])

  /** Fields whose message is shown (present and not the empty string). */
  function Shown(errs: Errors): set<Field> {
    set f | f in errs && errs[f] != ""
  }

  /** `handleSubmit`: the error object is replaced by the validator's
      result; the add callback receives the current draft exactly when that
      result is empty, and is not called otherwise. */
  function Submit(form: FormState): (r: (FormState, Option<Draft>))
    ensures r.0.data == form.data
    ensures r.0.errors == Validate(form.data)
    ensures r.1.Some? <==> Validate(form.data) == map[]
    ensures r.1.Some? ==> r.1.value == form.data
    ensures Shown(r.0.errors) == Validate(form.data).Keys
  {
    var errs := Validate(form.data);
    (form.(errors := errs), if |errs| == 0 then Some(form.data) else None)
  }

  /** Submitting the form as it first appears shows the three "required"
      messages and sends nothing. */
  lemma SubmitFreshShowsRequired()
    ensures Submit(Fresh).0.errors == map[Name := NameRequired, Email := EmailRequired, Phone := PhoneRequired]
    ensures Submit(Fresh).1 == None
  {
    EmptyDraftExample();
  }

  /** `handleChange`: only the edited field's value changes, and its
      message is reset to the empty string only when one was shown. */
  function Change(form: FormState, f: Field, v: string): (r: FormState)
    ensures Get(r.data, f) == v
    ensures forall g :: g != f ==> Get(r.data, g) == Get(form.data, g)
    ensures r.errors.Keys == form.errors.Keys
    ensures forall g :: g != f && g in form.errors ==> r.errors[g] == form.errors[g]
    ensures f in form.errors && form.errors[f] != "" ==> r.errors[f] == ""
    ensures f in form.errors && form.errors[f] == "" ==> r.errors[f] == ""
  {
    var errs := if f in form.errors && form.errors[f] != "" then form.errors[f := ""] else form.errors;
    FormState(Set(form.data, f, v), errs)
  }

  /** Editing a field hides that field's message and no other. */
  lemma ChangeHidesOnlyThatField(form: FormState, f: Field, v: string)
    ensures Shown(Change(form, f, v).errors) == Shown(form.errors) - {f}
  {
  }
}

=== FILE: routes.dfy ===
/**
 * The route table of backend/main.py: which handler a request method and
 * request target reach. Paths are matched in declaration order, a path
 * parameter is one non-empty segment without `/`, and a `contact_id`
 * segment that is not an integer is answered with 422 before the handler
 * runs.
 */
module ServerRoutes {

  import opened Wrappers
  import opened Text
  import opened ApiClient

  /** The handler a request reaches, or the error the router answers with. */
  datatype Handler =
    | RootInfo                      // GET /
    | Health                        // GET /health
    | ListContacts(query: string)   // GET /contacts, with the raw query string
    | AddContact                    // POST /contacts
    | ReadContact(id: int)          // GET /contacts/{contact_id}
    | ChangeContact(id: int)        // PUT /contacts/{contact_id}
    | RemoveContact(id: int)        // DELETE /contacts/{contact_id}
    | SearchContacts(term: string)  // GET /contacts/search/{search_term}
    | InvalidId(segment: string)    // 422: the id segment is not an integer
    | MethodNotAllowed              // 405: the path exists for other methods
    | NoRoute                       // 404

  const ContactsPrefix := "/contacts/"
  const SearchPrefix := "/contacts/search/"

  /** The one path segment after `prefix`, if `path` is `prefix` followed
      by a non-empty text without `/`. */
  function SegmentAfter(path: string, prefix: string): (r: Option<string>)
    ensures r.Some? ==> path == prefix + r.value && r.value != "" && '/' !in r.value
    ensures r.None? ==> forall seg :: seg != "" && '/' !in seg ==> path != prefix + seg
  {
    if prefix <= path && |path| > |prefix| && '/' !in path[|prefix|..] then
      assert path == prefix + path[|prefix|..];
      Some(path[|prefix|..])
    else
      assert forall seg :: path == prefix + seg ==> path[|prefix|..] == seg;
      None
  }

  /** The path of a request target: everything before the first `?`. */
  function PathOf(target: string): (p: string)
    ensures p <= target && '?' !in p
  {
    Before(target, '?')
  }

  /** The query string of a request target: everything after the first
      `?`, empty when there is none. */
  function QueryOf(target: string): (q: string)
    ensures |PathOf(target)| < |target| ==> target == PathOf(target) + "?" + q
  {
    var p := PathOf(target);
    if |p| < |target| then
      assert target == p + "?" + target[|p| + 1..];
      target[|p| + 1..]
    else ""
  }

  /** A target made of a path without `?`, a `?` and a query splits back
      into that path and that query. */
  lemma SplitTarget(p: string, q: string)
    requires '?' !in p
    ensures PathOf(p + "?" + q) == p
    ensures QueryOf(p + "?" + q) == q
  {
    BeforeStops(p, '?', q);
    assert (p + "?" + q)[|p| + 1..] == q;
  }

  /** The handler of an id route for a method, once the id has parsed. */
  function IdHandler(m: Method, id: int): Handler {
    match m
    case Get => ReadContact(id)
    case Put => ChangeContact(id)
    case Delete => RemoveContact(id)
    case Post => MethodNotAllowed
  }

  /** Routing of a request. */
  function Route(m: Method, target: string): (h: Handler)
    ensures h.ListContacts? <==> m == Get && PathOf(target) == "/contacts"
    ensures h.ListContacts? ==> h.query == QueryOf(target)
    ensures h == AddContact <==> m == Post && PathOf(target) == "/contacts"
    ensures h.ReadContact? || h.ChangeContact? || h.RemoveContact? ==>
      SegmentAfter(PathOf(target), ContactsPrefix).Some?
    ensures h.ReadContact? ==> m == Get
    ensures h.ChangeContact? ==> m == Put
    ensures h.RemoveContact? ==> m == Delete
  {
    var path := PathOf(target);
    if path == "/" then
      if m == Get then RootInfo else MethodNotAllowed
    else if path == "/health" then
      if m == Get then Health else MethodNotAllowed
    else if path == "/contacts" then
      match m
      case Get => ListContacts(QueryOf(target))
      case Post => AddContact
      case _ => MethodNotAllowed
    else if SegmentAfter(path, ContactsPrefix).Some? then
      var seg := SegmentAfter(path, ContactsPrefix).value;
      if m == Post then MethodNotAllowed
      else match ParseInt(seg)
        case Some(id) => IdHandler(m, id)
        case None => InvalidId(seg)
    else if SegmentAfter(path, SearchPrefix).Some? then
      if m == Get then SearchContacts(SegmentAfter(path, SearchPrefix).value) else MethodNotAllowed
    else NoRoute
  }

  /** An id route reaches its handler with the integer that the segment
      spells, and a segment that spells none is answered with 422. */
  lemma IdRouteParses(m: Method, target: string)
    requires SegmentAfter(PathOf(target), ContactsPrefix).Some?
    requires m != Post
    ensures var seg := SegmentAfter(PathOf(target), ContactsPrefix).value;
      match ParseInt(seg)
      case Some(id) => Route(m, target) == IdHandler(m, id)
      case None => Route(m, target) == InvalidId(seg)
  {
    var path := PathOf(target);
    assert path != "/" && path != "/health" && path != "/contacts" by {
      assert |path| > |ContactsPrefix|;
    }
  }

  /** The search route is never shadowed by the id route: a search target
      has two segments after `/contacts/`. */
  lemma SearchRouteReached(term: string)
    requires term != "" && '/' !in term && '?' !in term
    ensures Route(Get, SearchPrefix + term) == SearchContacts(term)
  {
    var target := SearchPrefix + term;
    BeforeStops(target, '?', "");
    assert '/' in target[|ContactsPrefix|..] by {
      assert target[|ContactsPrefix|..][6] == '/';
    }
    assert target[|SearchPrefix|..] == term;
  }

  /** `/health` is the health route for a GET. */
  lemma HealthRouteReached()
    ensures Route(Get, "/health") == Health
  {
    BeforeStops("/health", '?', "");
  }

  /** `/contacts/search/` with nothing after it has no segment for either
      path parameter, so no route takes it. */
  lemma EmptySearchNoRoute()
    ensures Route(Get, SearchPrefix) == NoRoute
  {
    var target := SearchPrefix;
    assert target == ContactsPrefix + "search/";
    assert '?' !in target;
    BeforeStops(target, '?', "");
    assert target != "/" && target != "/health" && target != "/contacts" by {
      assert |target| > |"/contacts"|;
    }
    assert SegmentAfter(target, ContactsPrefix).None? by {
      assert target[|ContactsPrefix|..] == "search/";
      assert "search/"[6] == '/';
    }
    assert SegmentAfter(target, SearchPrefix).None?;
  }
}

=== FILE: seqs.dfy ===
/**
 * Order-preserving filtering of sequences (JavaScript `Array.prototype.filter`,
 * a SQL `WHERE` over rows kept in order) and the subsequence relation it
 * produces.
 */
module Seqs {

  /** `r` can be obtained from `s` by deleting elements, keeping the order
      of the rest. */
  ghost predicate SubsequenceOf<T>(r: seq<T>, s: seq<T>)
    decreases |s|
  {
    if |r| == 0 then true
    else if |s| == 0 then false
    else (r[0] == s[0] && SubsequenceOf(r[1..], s[1..])) || SubsequenceOf(r, s[1..])
  }

  /** The elements of `s` that satisfy `p`, in their original order. */
  function Keep<T>(s: seq<T>, p: T -> bool): (r: seq<T>)
    ensures |r| <= |s|
    ensures forall x :: x in r ==> x in s && p(x)
  {
    if |s| == 0 then []
    else if p(s[0]) then [s[0]] + Keep(s[1..], p)
    else Keep(s[1..], p)
  }

  lemma {:induction false} SubsequenceOfSelf<T>(s: seq<T>)
    ensures SubsequenceOf(s, s)
    decreases |s|
  {
    if |s| > 0 {
      SubsequenceOfSelf(s[1..]);
    }
  }

  /** Filtering only ever deletes elements: the kept ones stay in order. */
  lemma {:induction false} KeepIsSubsequence<T>(s: seq<T>, p: T -> bool)
    ensures SubsequenceOf(Keep(s, p), s)
    decreases |s|
  {
    if |s| > 0 {
      KeepIsSubsequence(s[1..], p);
      if p(s[0]) {
        assert Keep(s, p)[1..] == Keep(s[1..], p);
      } else {
        if |Keep(s, p)| > 0 {
          assert SubsequenceOf(Keep(s, p), s[1..]);
        }
      }
    }
  }

  /** Nothing that satisfies `p` is dropped. */
  lemma {:induction false} KeepComplete<T>(s: seq<T>, p: T -> bool)
    ensures forall i :: 0 <= i < |s| && p(s[i]) ==> s[i] in Keep(s, p)
    decreases |s|
  {
    if |s| > 0 {
      KeepComplete(s[1..], p);
      forall i | 0 <= i < |s| && p(s[i]) ensures s[i] in Keep(s, p) {
        if i > 0 {
          assert s[i] == s[1..][i - 1];
        }
      }
    }
  }

  /** An element belongs to the result exactly when it belongs to the input
      and satisfies `p`. */
  lemma KeepMembership<T>(s: seq<T>, p: T -> bool, x: T)
    ensures x in Keep(s, p) <==> x in s && p(x)
  {
    KeepComplete(s, p);
  }

  /** When every element satisfies `p`, nothing is removed. */
  lemma {:induction false} KeepAll<T>(s: seq<T>, p: T -> bool)
    requires forall i :: 0 <= i < |s| ==> p(s[i])
    ensures Keep(s, p) == s
    decreases |s|
  {
    if |s| > 0 {
      KeepAll(s[1..], p);
      assert s == [s[0]] + s[1..];
    }
  }

  /** Filtering a concatenation filters each part. */
  lemma {:induction false} KeepConcat<T>(a: seq<T>, b: seq<T>, p: T -> bool)
    ensures Keep(a + b, p) == Keep(a, p) + Keep(b, p)
    decreases |a|
  {
    if |a| > 0 {
      KeepConcat(a[1..], b, p);
      assert (a + b)[1..] == a[1..] + b;
    } else {
      assert a + b == b;
    }
  }

  /** Two filters applied one after the other commute. */
  lemma {:induction false} KeepCommute<T>(s: seq<T>, p: T -> bool, q: T -> bool)
    ensures Keep(Keep(s, p), q) == Keep(Keep(s, q), p)
    decreases |s|
  {
    if |s| > 0 {
      KeepCommute(s[1..], p, q);
    }
  }

  /** The filter keeps every copy of an element that satisfies `p` and no
      copy of one that does not. */
  lemma {:induction false} KeepMultiplicity<T>(s: seq<T>, p: T -> bool, x: T)
    ensures multiset(Keep(s, p))[x] == if p(x) then multiset(s)[x] else 0
    decreases |s|
  {
    if |s| > 0 {
      KeepMultiplicity(s[1..], p, x);
      assert s == [s[0]] + s[1..];
    }
  }

  /** Lists holding the same elements, in any order, keep the same elements
      under the filter. */
  lemma KeepSameMultiset<T>(a: seq<T>, b: seq<T>, p: T -> bool)
    requires multiset(a) == multiset(b)
    ensures multiset(Keep(a, p)) == multiset(Keep(b, p))
  {
    forall x ensures multiset(Keep(a, p))[x] == multiset(Keep(b, p))[x] {
      KeepMultiplicity(a, p, x);
      KeepMultiplicity(b, p, x);
      assert multiset(a)[x] == multiset(b)[x];
    }
    SameMultiplicities(multiset(Keep(a, p)), multiset(Keep(b, p)));
  }

  lemma SameMultiplicities<T>(m: multiset<T>, n: multiset<T>)
    requires forall x :: m[x] == n[x]
    ensures m == n
  {
  }

  /** Every two elements, in order, are related by `R`. */
  ghost predicate Pairwise<T>(s: seq<T>, R: (T, T) -> bool) {
    forall i, j :: 0 <= i < j < |s| ==> R(s[i], s[j])
  }

  lemma {:induction false} SubsequenceMembers<T>(r: seq<T>, s: seq<T>)
    requires SubsequenceOf(r, s)
    ensures forall x :: x in r ==> x in s
    decreases |s|
  {
    if |r| > 0 {
      if r[0] == s[0] && SubsequenceOf(r[1..], s[1..]) {
        SubsequenceMembers(r[1..], s[1..]);
        forall x | x in r ensures x in s {
          if x != r[0] {
            assert x in r[1..];
          }
        }
      } else {
        SubsequenceMembers(r, s[1..]);
      }
    }
  }

  /** A relation that holds pairwise along `s` holds along any subsequence. */
  lemma {:induction false} SubsequencePairwise<T>(r: seq<T>, s: seq<T>, R: (T, T) -> bool)
    requires SubsequenceOf(r, s) && Pairwise(s, R)
    ensures Pairwise(r, R)
    decreases |s|
  {
    if |r| > 0 {
      assert Pairwise(s[1..], R) by {
        forall i, j | 0 <= i < j < |s| - 1 ensures R(s[1..][i], s[1..][j]) {
          assert R(s[i + 1], s[j + 1]);
        }
      }
      if r[0] == s[0] && SubsequenceOf(r[1..], s[1..]) {
        SubsequencePairwise(r[1..], s[1..], R);
        SubsequenceMembers(r[1..], s[1..]);
        forall i, j | 0 <= i < j < |r| ensures R(r[i], r[j]) {
          if i == 0 {
            assert r[j] == r[1..][j - 1];
            assert r[j] in s[1..];
            var k :| 0 <= k < |s[1..]| && s[1..][k] == r[j];
            assert R(s[0], s[k + 1]);
          } else {
            assert R(r[1..][i - 1], r[1..][j - 1]);
          }
        }
      } else {
        SubsequencePairwise(r, s[1..], R);
      }
    }
  }

  lemma {:induction false} SliceIsSubsequence<T>(s: seq<T>, i: int, j: int)
    requires 0 <= i <= j <= |s|
    ensures SubsequenceOf(s[i..j], s)
    decreases |s|
  {
    if i < j {
      if i > 0 {
        SliceIsSubsequence(s[1..], i - 1, j - 1);
        assert s[1..][i - 1..j - 1] == s[i..j];
      } else {
        SliceIsSubsequence(s[1..], 0, j - 1);
        assert s[1..][0..j - 1] == s[i..j][1..];
      }
    }
  }

  lemma {:induction false} SubsequenceTransitive<T>(a: seq<T>, b: seq<T>, c: seq<T>)
    requires SubsequenceOf(a, b) && SubsequenceOf(b, c)
    ensures SubsequenceOf(a, c)
    decreases |c|
  {
    if |a| > 0 {
      if b[0] == c[0] && SubsequenceOf(b[1..], c[1..]) {
        if a[0] == b[0] && SubsequenceOf(a[1..], b[1..]) {
          SubsequenceTransitive(a[1..], b[1..], c[1..]);
        } else {
          SubsequenceTransitive(a, b[1..], c[1..]);
        }
      } else {
        SubsequenceTransitive(a, b, c[1..]);
      }
    }
  }

  /** `KeepMembership` for every element at once. */
  lemma KeepMembershipAll<T>(s: seq<T>, p: T -> bool)
    ensures forall x :: x in Keep(s, p) <==> x in s && p(x)
  {
    forall x ensures x in Keep(s, p) <==> x in s && p(x) {
      KeepMembership(s, p, x);
    }
  }

  /** Filtering keeps any pairwise relation of the input. */
  lemma KeepPairwise<T>(s: seq<T>, p: T -> bool, R: (T, T) -> bool)
    requires Pairwise(s, R)
    ensures Pairwise(Keep(s, p), R)
  {
    KeepIsSubsequence(s, p);
    SubsequencePairwise(Keep(s, p), s, R);
  }
}

=== FILE: store.dfy ===
/**
 * The contacts API of backend/main.py over an abstract table: rows kept in
 * id order, each handler returning either its value or an HTTP error with
 * the handler's status and detail.
 */
module ContactStore {

  import opened Wrappers
  import opened Text
  import opened Seqs
  import opened Contacts

  datatype HttpError = HttpError(status: int, detail: string)

  const NotFound := HttpError(404, "Contact not found")
  const EmailTaken := HttpError(400, "Email already exists")

  /** The `contacts` table. */
  datatype Store = Store(rows: seq<Contact>)

  /** Row ids are positive and increase along the table (so they are
      unique), and no two rows share an email (`unique=True`). */
  ghost predicate Valid(st: Store) {
    && (forall c :: c in st.rows ==> c.id >= 1)
    && Pairwise(st.rows, IdBefore)
    && UniqueEmails(st.rows)
  }

  predicate IdBefore(a: Contact, b: Contact) {
    a.id < b.id
  }

  predicate DistinctEmails(a: Contact, b: Contact) {
    a.email != b.email
  }

  ghost predicate UniqueEmails(rows: seq<Contact>) {
    Pairwise(rows, DistinctEmails)
  }

  lemma ValidHasUniqueIds(st: Store)
    requires Valid(st)
    ensures UniqueIds(st.rows)
  {
    forall i, j | 0 <= i < j < |st.rows| ensures st.rows[i].id != st.rows[j].id {
      assert IdBefore(st.rows[i], st.rows[j]);
    }
  }

  /** Python truthiness of an optional string: given and not empty. */
  predicate Truthy(o: Option<string>) {
    o.Some? && o.value != ""
  }

  // ---------------------------------------------------------------------
  // GET /contacts and GET /contacts/search/{term}

  /** `name.contains(t) | email.contains(t) | phone.contains(t)` for the
      database's `contains`, which is left abstract. */
  function RowMatches(term: string, contains: (string, string) -> bool): Contact -> bool {
    (c: Contact) => contains(c.name, term) || contains(c.email, term) || contains(c.phone, term)
  }

  /** First row of `OFFSET skip`: SQLite treats a negative offset as zero,
      and an offset past the end leaves nothing. */
  function WindowStart(n: nat, skip: int): (k: nat)
    ensures k <= n
  {
    if skip <= 0 then 0 else if skip >= n then n else skip
  }

  /** `OFFSET skip LIMIT limit` over rows in order: a negative limit means
      no limit. The page is the run of rows from the first row of the
      offset on, `limit` of them when that many remain and every remaining
      one otherwise. */
  function Window<T>(rows: seq<T>, skip: int, limit: int): (r: seq<T>)
    ensures |r| <= |rows|
    ensures limit >= 0 ==> |r| <= limit
    ensures WindowStart(|rows|, skip) + |r| <= |rows|
    ensures forall i :: 0 <= i < |r| ==> r[i] == rows[WindowStart(|rows|, skip) + i]
    ensures limit < 0 || WindowStart(|rows|, skip) + limit >= |rows| ==>
      |r| == |rows| - WindowStart(|rows|, skip)
    ensures limit >= 0 && WindowStart(|rows|, skip) + limit < |rows| ==> |r| == limit
  {
    var k := WindowStart(|rows|, skip);
    var end := if limit < 0 || k + limit >= |rows| then |rows| else k + limit;
    rows[k..end]
  }

  /** Consecutive pages tile the table: page `[k, k+n)` followed by page
      `[k+n, k+n+m)` is page `[k, k+n+m)`. */
  lemma WindowsTile<T>(rows: seq<T>, k: nat, n: nat, m: nat)
    ensures Window(rows, k, n) + Window(rows, k + n, m) == Window(rows, k, n + m)
  {
  }

  /** The defaults of the `skip` and `limit` query parameters. */
  const DefaultSkip := 0
  const DefaultLimit := 100

  /** The rows `get_contacts` pages over: with a truthy `search`, the rows
      whose name, email or phone contains it, otherwise every row; in table
      order either way. */
  function Matching(st: Store, search: Option<string>, contains: (string, string) -> bool): (m: seq<Contact>)
    ensures forall c :: c in m <==> c in st.rows && (Truthy(search) ==> RowMatches(search.value, contains)(c))
    ensures SubsequenceOf(m, st.rows)
  {
    if Truthy(search) then
      KeepMembershipAll(st.rows, RowMatches(search.value, contains));
      KeepIsSubsequence(st.rows, RowMatches(search.value, contains));
      Keep(st.rows, RowMatches(search.value, contains))
    else
      SubsequenceOfSelf(st.rows);
      st.rows
  }

  /** The search keeps every copy of a matching row and no copy of
      another. */
  lemma MatchingMultiplicity(st: Store, search: Option<string>, contains: (string, string) -> bool, c: Contact)
    ensures multiset(Matching(st, search, contains))[c]
         == if !Truthy(search) || RowMatches(search.value, contains)(c) then multiset(st.rows)[c] else 0
  {
    if Truthy(search) {
      KeepMultiplicity(st.rows, RowMatches(search.value, contains), c);
    }
  }

  /** `get_contacts`: the page `[skip, skip + limit)` of the matching rows.
      Every listed row is a row of the table that matches the search when
      one is given, and the rows keep table order. */
  function GetContacts(st: Store, skip: int, limit: int, search: Option<string>,
                       contains: (string, string) -> bool): (r: seq<Contact>)
    ensures var m := Matching(st, search, contains);
      var k := WindowStart(|m|, skip);
      && k + |r| <= |m|
      && (forall i :: 0 <= i < |r| ==> r[i] == m[k + i])
      && (limit < 0 || k + limit >= |m| ==> |r| == |m| - k)
      && (limit >= 0 && k + limit < |m| ==> |r| == limit)
    ensures forall c :: c in r ==> c in st.rows && (Truthy(search) ==> RowMatches(search.value, contains)(c))
    ensures SubsequenceOf(r, st.rows)
  {
    var m := Matching(st, search, contains);
    var r := Window(m, skip, limit);
    var k := WindowStart(|m|, skip);
    assert r == m[k..k + |r|];
    SliceIsSubsequence(m, k, k + |r|);
    SubsequenceTransitive(r, m, st.rows);
    assert forall c :: c in r ==> c in m;
    r
  }

  /** With the default query parameters and no search, the list route
      returns the first hundred rows of the table, or all of them when there
      are no more than that. */
  lemma DefaultListIsFirstPage(st: Store, contains: (string, string) -> bool)
    ensures GetContacts(st, DefaultSkip, DefaultLimit, None, contains)
         == st.rows[..if |st.rows| < DefaultLimit then |st.rows| else DefaultLimit]
    ensures |st.rows| <= DefaultLimit ==> GetContacts(st, DefaultSkip, DefaultLimit, None, contains) == st.rows
  {
  }

  /** `search_contacts`: the matching rows, with no paging. */
  function SearchContacts(st: Store, term: string, contains: (string, string) -> bool): (r: seq<Contact>)
    ensures forall c :: c in r <==> c in st.rows && RowMatches(term, contains)(c)
  {
    KeepMembershipAll(st.rows, RowMatches(term, contains));
    Keep(st.rows, RowMatches(term, contains))
  }

  /** The search route returns exactly what the list route returns for the
      same term, from the start and without a limit. */
  lemma SearchIsUnpagedList(st: Store, term: string, contains: (string, string) -> bool)
    requires term != ""
    ensures SearchContacts(st, term, contains) == GetContacts(st, 0, -1, Some(term), contains)
    ensures SearchContacts(st, term, contains) == GetContacts(st, 0, |st.rows|, Some(term), contains)
  {
  }

  // ---------------------------------------------------------------------
  // GET /contacts/{id}

  /** `get_contact`: the row with that id, or 404 "Contact not found". */
  function GetContact(st: Store, id: int): (r: Result<Contact, HttpError>)
    ensures r.Ok? <==> HasId(st.rows, id)
    ensures r.Ok? ==> r.value in st.rows && r.value.id == id
    ensures r.Err? ==> r.error == NotFound
  {
    match FindById(st.rows, id)
    case Some(c) => Ok(c)
    case None => Err(NotFound)
  }

  // ---------------------------------------------------------------------
  // POST /contacts

  /** The body of a create request (`ContactCreate`). */
  datatype NewContact = NewContact(name: string, email: string, phone: string, avatar: Option<string>)

  const AvatarPrefix := "https://ui-avatars.com/api/?name="
  const AvatarSuffix := "&background=random&color=fff&size=150"

  /** The generated avatar URL: the name with every space turned into `+`
      between a fixed prefix and suffix. */
  function DefaultAvatar(name: string): (url: string)
    ensures |url| == |AvatarPrefix| + |name| + |AvatarSuffix|
    ensures url[..|AvatarPrefix|] == AvatarPrefix
    ensures url[|AvatarPrefix| + |name|..] == AvatarSuffix
    ensures url[|AvatarPrefix|..|AvatarPrefix| + |name|] == ReplaceChar(name, ' ', '+')
    ensures forall i :: |AvatarPrefix| <= i < |AvatarPrefix| + |name| ==> url[i] != ' '
  {
    var url := AvatarPrefix + ReplaceChar(name, ' ', '+') + AvatarSuffix;
    assert url[|AvatarPrefix|..|AvatarPrefix| + |name|] == ReplaceChar(name, ' ', '+');
    url
  }

  /** For names without `+`, the avatar URL determines the name: turning
      the `+` of its middle part back into spaces gives the name again. */
  lemma DefaultAvatarDeterminesName(a: string, b: string)
    requires forall i :: 0 <= i < |a| ==> a[i] != '+'
    requires forall i :: 0 <= i < |b| ==> b[i] != '+'
    requires DefaultAvatar(a) == DefaultAvatar(b)
    ensures a == b
  {
    var n := |AvatarPrefix|;
    assert ReplaceChar(a, ' ', '+') == DefaultAvatar(a)[n..n + |a|];
    assert ReplaceChar(b, ' ', '+') == DefaultAvatar(b)[n..n + |b|];
    ReplaceCharInverse(a, ' ', '+');
    ReplaceCharInverse(b, ' ', '+');
  }

  /** The avatar stored on create: the given one when truthy, otherwise the
      generated one. */
  function AvatarFor(nc: NewContact): (a: string)
    ensures a != ""
    ensures Truthy(nc.avatar) ==> a == nc.avatar.value
    ensures !Truthy(nc.avatar) ==>
      && AvatarPrefix <= a && |AvatarPrefix| + |nc.name| <= |a|
      && a[|AvatarPrefix|..|AvatarPrefix| + |nc.name|] == ReplaceChar(nc.name, ' ', '+')
    ensures !Truthy(nc.avatar) ==>
      a == DefaultAvatar(nc.name) && a[|AvatarPrefix| + |nc.name|..] == AvatarSuffix
  {
    if Truthy(nc.avatar) then nc.avatar.value else DefaultAvatar(nc.name)
  }

  predicate EmailInUse(rows: seq<Contact>, email: string) {
    exists i | 0 <= i < |rows| :: rows[i].email == email
  }

  function MaxId(rows: seq<Contact>): (m: int)
    ensures m >= 0
    ensures forall i :: 0 <= i < |rows| ==> rows[i].id <= m
  {
    if |rows| == 0 then 0
    else
      var rest := MaxId(rows[..|rows| - 1]);
      if rows[|rows| - 1].id > rest then rows[|rows| - 1].id else rest
  }

  /** The id SQLite gives a new row: one more than the largest id in the
      table, 1 for an empty table. */
  function NextId(rows: seq<Contact>): (id: int)
    ensures id >= 1
    ensures forall i :: 0 <= i < |rows| ==> rows[i].id < id
  {
    MaxId(rows) + 1
  }

  /** `create_contact`: 400 "Email already exists" when the email is in
      use; otherwise one row is appended with a fresh id, the given fields
      and the avatar of `AvatarFor`. */
  function CreateContact(st: Store, nc: NewContact): (r: Result<(Store, Contact), HttpError>)
    ensures r.Err? <==> EmailInUse(st.rows, nc.email)
    ensures r.Err? ==> r.error == EmailTaken
    ensures r.Ok? ==>
      var (st', c) := r.value;
      && st'.rows == st.rows + [c]
      && c == Contact(c.id, nc.name, nc.email, nc.phone, AvatarFor(nc))
      && !HasId(st.rows, c.id)
  {
    if EmailInUse(st.rows, nc.email) then Err(EmailTaken)
    else
      var c := Contact(NextId(st.rows), nc.name, nc.email, nc.phone, AvatarFor(nc));
      Ok((Store(st.rows + [c]), c))
  }

  lemma CreatePreservesValid(st: Store, nc: NewContact)
    requires Valid(st)
    ensures CreateContact(st, nc).Ok? ==> Valid(CreateContact(st, nc).value.0)
  {
  }

  // ---------------------------------------------------------------------
  // PUT /contacts/{id}

  /** The body of an update request (`ContactUpdate`) after
      `exclude_unset`: `None` for a field the request did not send. */
  datatype ContactPatch = ContactPatch(name: Option<string>, email: Option<string>,
                                       phone: Option<string>, avatar: Option<string>)

  function Pick(o: Option<string>, current: string): string {
    if o.Some? then o.value else current
  }

  /** The row after `setattr` of every sent field. */
  function ApplyPatch(c: Contact, p: ContactPatch): (r: Contact)
    ensures r.id == c.id
    ensures p.name.None? ==> r.name == c.name
    ensures p.email.None? ==> r.email == c.email
    ensures p.phone.None? ==> r.phone == c.phone
    ensures p.avatar.None? ==> r.avatar == c.avatar
    ensures p.name.Some? ==> r.name == p.name.value
    ensures p.email.Some? ==> r.email == p.email.value
    ensures p.phone.Some? ==> r.phone == p.phone.value
    ensures p.avatar.Some? ==> r.avatar == p.avatar.value
  {
    Contact(c.id, Pick(p.name, c.name), Pick(p.email, c.email), Pick(p.phone, c.phone), Pick(p.avatar, c.avatar))
  }

  /** The table with the row of this id replaced. */
  function ReplaceById(rows: seq<Contact>, id: int, c: Contact): (r: seq<Contact>)
    ensures |r| == |rows|
    ensures forall i :: 0 <= i < |rows| ==> r[i] == if rows[i].id == id then c else rows[i]
  {
    seq(|rows|, i requires 0 <= i < |rows| => if rows[i].id == id then c else rows[i])
  }

  /** `update_contact` as written, up to the commit: 404 for a missing id;
      400 only when the new email is truthy, differs from the current one
      and is in use; otherwise the row patched with the sent fields. */
  function UpdateAsWritten(st: Store, id: int, p: ContactPatch): (r: Result<(Store, Contact), HttpError>)
    ensures r.Err? ==> r.error == NotFound || r.error == EmailTaken
    ensures r == Err(NotFound) <==> !HasId(st.rows, id)
    ensures HasId(st.rows, id) ==>
      (r == Err(EmailTaken) <==>
        Truthy(p.email) && p.email.value != FindById(st.rows, id).value.email
        && EmailInUse(st.rows, p.email.value))
    ensures r.Ok? ==>
      var (st', c) := r.value;
      && HasId(st.rows, id)
      && c == ApplyPatch(FindById(st.rows, id).value, p)
      && st'.rows == ReplaceById(st.rows, id, c)
  {
    match FindById(st.rows, id)
    case None => Err(NotFound)
    case Some(cur) =>
      if Truthy(p.email) && p.email.value != cur.email && EmailInUse(st.rows, p.email.value) then
        Err(EmailTaken)
      else
        var c := ApplyPatch(cur, p);
        Ok((Store(ReplaceById(st.rows, id, c)), c))
  }

  /** With a row whose email is empty, sending an empty email for another
      row passes the check as written and leaves two rows with the same
      email. */
  lemma UpdateAsWrittenDuplicatesEmptyEmail()
    ensures var st := Store([Contact(1, "A", "", "1", "a"), Contact(2, "B", "b@x.io", "2", "b")]);
      && Valid(st)
      && var r := UpdateAsWritten(st, 2, ContactPatch(None, Some(""), None, None));
      && r.Ok? && !UniqueEmails(r.value.0.rows)
  {
    var st := Store([Contact(1, "A", "", "1", "a"), Contact(2, "B", "b@x.io", "2", "b")]);
    var r := UpdateAsWritten(st, 2, ContactPatch(None, Some(""), None, None));
    assert FindById(st.rows, 2) == Some(st.rows[1]);
    assert r.value.0.rows[0].email == r.value.0.rows[1].email;
  }

  /** `update_contact` with the duplicate check applied to every email that
      is sent and differs from the current one: 404 for a missing id, 400
      when that email belongs to another row, and otherwise only the sent
      fields of this row change. */
  function UpdateContact(st: Store, id: int, p: ContactPatch): (r: Result<(Store, Contact), HttpError>)
    ensures !HasId(st.rows, id) ==> r == Err(NotFound)
    ensures HasId(st.rows, id) && r.Err? ==>
      r.error == EmailTaken && p.email.Some? && EmailInUse(st.rows, p.email.value)
    ensures HasId(st.rows, id) ==>
      (r == Err(EmailTaken) <==>
        p.email.Some? && p.email.value != FindById(st.rows, id).value.email
        && EmailInUse(st.rows, p.email.value))
    ensures r.Ok? ==>
      var (st', c) := r.value;
      && HasId(st.rows, id) && c.id == id
      && st'.rows == ReplaceById(st.rows, id, c)
      && (exists prev :: prev in st.rows && prev.id == id && c == ApplyPatch(prev, p))
  {
    match FindById(st.rows, id)
    case None => Err(NotFound)
    case Some(cur) =>
      if p.email.Some? && p.email.value != cur.email && EmailInUse(st.rows, p.email.value) then
        Err(EmailTaken)
      else
        var c := ApplyPatch(cur, p);
        Ok((Store(ReplaceById(st.rows, id, c)), c))
  }

  /** The corrected check rejects the update of the counterexample. */
  lemma UpdateContactRejectsEmptyEmailDuplicate()
    ensures var st := Store([Contact(1, "A", "", "1", "a"), Contact(2, "B", "b@x.io", "2", "b")]);
      UpdateContact(st, 2, ContactPatch(None, Some(""), None, None)) == Err(EmailTaken)
  {
    var st := Store([Contact(1, "A", "", "1", "a"), Contact(2, "B", "b@x.io", "2", "b")]);
    assert FindById(st.rows, 2) == Some(st.rows[1]);
    assert st.rows[0].email == "";
  }

  /** With unique ids, replacing by id replaces exactly the row at the
      position of that id. */
  lemma ReplaceAt(rows: seq<Contact>, id: int, c: Contact, k: int)
    requires UniqueIds(rows)
    requires 0 <= k < |rows| && rows[k].id == id
    ensures ReplaceById(rows, id, c) == rows[k := c]
  {
    forall i | 0 <= i < |rows| && i != k ensures rows[i].id != id {
      if i < k {
        assert rows[i].id != rows[k].id;
      } else {
        assert rows[k].id != rows[i].id;
      }
    }
  }

  /** Putting a row with the same id in place of another keeps a table
      valid, if its email is the old one or is used by no row. */
  lemma ReplaceKeepsValid(st: Store, k: int, c: Contact)
    requires Valid(st)
    requires 0 <= k < |st.rows| && c.id == st.rows[k].id
    requires c.email == st.rows[k].email || !EmailInUse(st.rows, c.email)
    ensures Valid(Store(st.rows[k := c]))
  {
    var rows := st.rows[k := c];
    forall i, j | 0 <= i < j < |rows| ensures IdBefore(rows[i], rows[j]) {
      assert IdBefore(st.rows[i], st.rows[j]);
    }
    forall i, j | 0 <= i < j < |rows| ensures DistinctEmails(rows[i], rows[j]) {
      assert DistinctEmails(st.rows[i], st.rows[j]);
      if c.email != st.rows[k].email {
        assert st.rows[i].email != c.email && st.rows[j].email != c.email;
      }
    }
    forall x | x in rows ensures x.id >= 1 {
      var i :| 0 <= i < |rows| && rows[i] == x;
      assert st.rows[i] in st.rows;
    }
  }

  /** A successful update keeps the table valid: ids stay in place and no
      email ends up on two rows. */
  lemma UpdatePreservesValid(st: Store, id: int, p: ContactPatch)
    requires Valid(st)
    ensures UpdateContact(st, id, p).Ok? ==> Valid(UpdateContact(st, id, p).value.0)
  {
    var r := UpdateContact(st, id, p);
    if r.Ok? {
      var (st', c) := r.value;
      var cur := FindById(st.rows, id).value;
      var k :| 0 <= k < |st.rows| && st.rows[k] == cur;
      ValidHasUniqueIds(st);
      ReplaceAt(st.rows, id, c, k);
      ReplaceKeepsValid(st, k, c);
    }
  }

  // ---------------------------------------------------------------------
  // DELETE /contacts/{id}

  /** `delete_contact`: 404 for a missing id; otherwise exactly that row
      is removed and the others stay in order. */
  function DeleteContact(st: Store, id: int): (r: Result<Store, HttpError>)
    ensures r.Ok? <==> HasId(st.rows, id)
    ensures r.Err? ==> r.error == NotFound
    ensures r.Ok? ==> r.value.rows == WithoutId(st.rows, id)
  {
    if FindById(st.rows, id).None? then Err(NotFound)
    else Ok(Store(WithoutId(st.rows, id)))
  }

  /** On a valid table a successful delete removes exactly one row, and
      the table stays valid. */
  lemma DeleteRemovesOne(st: Store, id: int)
    requires Valid(st)
    ensures DeleteContact(st, id).Ok? ==>
      && |DeleteContact(st, id).value.rows| == |st.rows| - 1
      && Valid(DeleteContact(st, id).value)
  {
    if DeleteContact(st, id).Ok? {
      ValidHasUniqueIds(st);
      WithoutPresentId(st.rows, id);
      KeepPairwise(st.rows, OtherId(id), IdBefore);
      KeepPairwise(st.rows, OtherId(id), DistinctEmails);
    }
  }
}

=== FILE: text.dfy ===
/**
 * Character and string helpers shared by the client and server models:
 * JavaScript whitespace and `trim`, ASCII lower-casing, substring search
 * (`includes` / SQL `contains`), single-character replacement (Python
 * `str.replace`) and the decimal rendering and parsing of integers.
 */
module Text {

  import opened Wrappers

  /** JavaScript's `\s` class, which is also the set `String.prototype.trim`
      strips: the WhiteSpace and LineTerminator code points of ECMAScript. */
  predicate IsSpace(c: char) {
    || c == '\t' || c == '\n' || c == '\U{000B}' || c == '\U{000C}' || c == '\r'
    || c == ' ' || c == '\U{00A0}' || c == '\U{1680}'
    || ('\U{2000}' <= c <= '\U{200A}')
    || c == '\U{2028}' || c == '\U{2029}' || c == '\U{202F}' || c == '\U{205F}'
    || c == '\U{3000}' || c == '\U{FEFF}'
  }

  predicate AllSpace(s: string) {
    forall i :: 0 <= i < |s| ==> IsSpace(s[i])
  }

  /** Drops leading whitespace: the result is the longest suffix of `s`
      that does not start with a space. */
  function TrimStart(s: string): (r: string)
    ensures |r| <= |s| && r == s[|s| - |r|..]
    ensures |r| > 0 ==> !IsSpace(r[0])
    ensures forall i :: 0 <= i < |s| - |r| ==> IsSpace(s[i])
  {
    if |s| > 0 && IsSpace(s[0]) then TrimStart(s[1..]) else s
  }

  /** Drops trailing whitespace: the result is the longest prefix of `s`
      that does not end with a space. */
  function TrimEnd(s: string): (r: string)
    ensures |r| <= |s| && r == s[..|r|]
    ensures |r| > 0 ==> !IsSpace(r[|r| - 1])
    ensures forall i :: |r| <= i < |s| ==> IsSpace(s[i])
  {
    if |s| > 0 && IsSpace(s[|s| - 1]) then TrimEnd(s[..|s| - 1]) else s
  }

  /** `s.trim()`: the result is empty exactly when `s` is all whitespace,
      and otherwise starts and ends with a non-space character. */
  function Trim(s: string): (r: string)
    ensures |r| <= |s|
    ensures |r| == 0 <==> AllSpace(s)
    ensures |r| > 0 ==> !IsSpace(r[0]) && !IsSpace(r[|r| - 1])
  {
    var t := TrimStart(s);
    var r := TrimEnd(t);
    assert |r| > 0 ==> r[0] == t[0];
    r
  }

  /** `s.trim()` is `s` with its leading and trailing whitespace removed:
      a slice of `s` with only whitespace before and after it. */
  lemma TrimStripsOuterSpace(s: string)
    ensures exists k ::
      (0 <= k <= |s| - |Trim(s)| && Trim(s) == s[k..k + |Trim(s)|]
       && AllSpace(s[..k]) && AllSpace(s[k + |Trim(s)|..]))
  {
    var t := TrimStart(s);
    var r := TrimEnd(t);
    TrimIsSlice(s, t, r);
    var k := |s| - |t|;
    assert Trim(s) == r;
    assert 0 <= k <= |s| - |r| && r == s[k..k + |r|] && AllSpace(s[..k]) && AllSpace(s[k + |r|..]);
  }

  /** A prefix `r` of a suffix `t` of `s`, where what `t` drops from `s`
      and what `r` drops from `t` is whitespace, is a slice of `s` with
      only whitespace before and after it. */
  lemma TrimIsSlice(s: string, t: string, r: string)
    requires |t| <= |s| && t == s[|s| - |t|..]
    requires forall i :: 0 <= i < |s| - |t| ==> IsSpace(s[i])
    requires |r| <= |t| && r == t[..|r|]
    requires forall i :: |r| <= i < |t| ==> IsSpace(t[i])
    ensures var k := |s| - |t|;
      && 0 <= k <= |s| - |r| && r == s[k..k + |r|]
      && AllSpace(s[..k]) && AllSpace(s[k + |r|..])
  {
    var k := |s| - |t|;
    assert r == s[k..k + |r|];
    SpacePrefix(s, k);
    SpaceSuffix(s, t, k, |r|);
  }

  lemma SpacePrefix(s: string, k: int)
    requires 0 <= k <= |s|
    requires forall i :: 0 <= i < k ==> IsSpace(s[i])
    ensures AllSpace(s[..k])
  {
    forall i | 0 <= i < k ensures IsSpace(s[..k][i]) {
      assert s[..k][i] == s[i];
    }
  }

  lemma SpaceSuffix(s: string, t: string, k: int, n: int)
    requires 0 <= k <= |s| && t == s[k..] && 0 <= n <= |t|
    requires forall i :: n <= i < |t| ==> IsSpace(t[i])
    ensures AllSpace(s[k + n..])
  {
    assert s[k + n..] == t[n..];
    forall i | 0 <= i < |t| - n ensures IsSpace(t[n..][i]) {
      assert t[n..][i] == t[n + i];
    }
  }

  /** `!s.trim()`: the string is empty or all whitespace, which by the
      contract of `Trim` is exactly when trimming leaves nothing. */
  predicate Blank(s: string) {
    AllSpace(s)
  }

  /** `Blank` is the falsiness of the trimmed string. */
  lemma BlankIffTrimEmpty(s: string)
    ensures Blank(s) <==> Trim(s) == ""
  {
  }

  /** A string that starts with a non-space character is not blank. */
  lemma NonSpaceStartNotBlank(s: string)
    requires |s| > 0 && !IsSpace(s[0])
    ensures !Blank(s)
  {
  }

  /** ASCII `toLowerCase` of one character. */
  function LowerChar(c: char): char {
    if 'A' <= c <= 'Z' then (c as int + 32) as char else c
  }

  /** ASCII `toLowerCase`: same length, every upper-case letter becomes
      its lower-case partner, and every other character is kept. */
  function Lower(s: string): (r: string)
    ensures |r| == |s|
    ensures forall i :: 0 <= i < |r| ==> !('A' <= r[i] <= 'Z')
    ensures forall i :: 0 <= i < |s| && !('A' <= s[i] <= 'Z') ==> r[i] == s[i]
    ensures forall i :: 0 <= i < |s| && 'A' <= s[i] <= 'Z' ==> r[i] == (s[i] as int + 32) as char
  {
    seq(|s|, i requires 0 <= i < |s| => LowerChar(s[i]))
  }

  /** `s.includes(t)`, scanning `s` left to right. */
  predicate Contains(s: string, t: string)
    decreases |s|
  {
    t <= s || (|s| > 0 && Contains(s[1..], t))
  }

  /** `t` occurs in `s` at position `i`. */
  ghost predicate OccursAt(s: string, t: string, i: int) {
    0 <= i && i + |t| <= |s| && s[i..i + |t|] == t
  }

  /** The scan finds `t` exactly when `t` occurs at some position of `s`. */
  lemma {:induction false} ContainsIff(s: string, t: string)
    ensures Contains(s, t) <==> exists i :: OccursAt(s, t, i)
    decreases |s|
  {
    if t <= s {
      assert OccursAt(s, t, 0);
    } else if |s| > 0 {
      ContainsIff(s[1..], t);
      if Contains(s[1..], t) {
        var i :| OccursAt(s[1..], t, i);
        assert s[1..][i..i + |t|] == s[i + 1..i + 1 + |t|];
        assert OccursAt(s, t, i + 1);
      }
      if i :| OccursAt(s, t, i) && i > 0 {
        assert s[1..][i - 1..i - 1 + |t|] == s[i..i + |t|];
        assert OccursAt(s[1..], t, i - 1);
      }
    }
  }

  /** A string never contains a longer one. */
  lemma {:induction false} ContainsLonger(s: string, t: string)
    requires |t| > |s|
    ensures !Contains(s, t)
    decreases |s|
  {
    if |s| > 0 {
      ContainsLonger(s[1..], t);
    }
  }

  /** Python `s.replace(a, b)` for one-character `a` and `b`: every `a` is
      replaced by `b` and every other character is kept, in place. */
  function ReplaceChar(s: string, a: char, b: char): (r: string)
    ensures |r| == |s|
    ensures forall i :: 0 <= i < |s| ==> r[i] == if s[i] == a then b else s[i]
  {
    if |s| == 0 then [] else [if s[0] == a then b else s[0]] + ReplaceChar(s[1..], a, b)
  }

  /** Replacing `a` by `b` and back restores a string that had no `b`. */
  lemma ReplaceCharInverse(s: string, a: char, b: char)
    requires forall i :: 0 <= i < |s| ==> s[i] != b
    ensures ReplaceChar(ReplaceChar(s, a, b), b, a) == s
  {
  }

  // ---------------------------------------------------------------------
  // Decimal integers: JavaScript template-literal / Python `str` rendering
  // of an integer, and the path-parameter parsing on the server side.

  predicate IsDigit(c: char) {
    '0' <= c <= '9'
  }

  function DigitChar(d: nat): char
    requires d < 10
  {
    ('0' as int + d) as char
  }

  function DigitValue(c: char): nat
    requires IsDigit(c)
  {
    c as int - '0' as int
  }

  /** Shortest decimal form of `n`: non-empty, only digits, and no leading
      zero unless `n` is zero. */
  function NatToDecimal(n: nat): (r: string)
    ensures |r| > 0
    ensures forall i :: 0 <= i < |r| ==> IsDigit(r[i])
    ensures r[0] == '0' ==> n == 0 && |r| == 1
    decreases n
  {
    if n < 10 then [DigitChar(n)] else NatToDecimal(n / 10) + [DigitChar(n % 10)]
  }

  /** Value of a digit string read most-significant first. */
  function DecimalValue(s: string): nat
    requires forall i :: 0 <= i < |s| ==> IsDigit(s[i])
  {
    if |s| == 0 then 0 else DecimalValue(s[..|s| - 1]) * 10 + DigitValue(s[|s| - 1])
  }

  /** Decimal rendering of an integer as `String` gives it: a leading `-`
      when negative, and no leading zero except in "0" itself. */
  function IntToDecimal(i: int): (r: string)
    ensures |r| > 0
    ensures i >= 0 <==> r[0] != '-'
    ensures forall k :: 0 < k < |r| ==> IsDigit(r[k])
    ensures |r| > 1 && r[0] != '-' ==> r[0] != '0'
    ensures r[0] == '-' ==> |r| > 1 && r[1] != '0'
  {
    if i >= 0 then NatToDecimal(i) else "-" + NatToDecimal(-i)
  }

  /** Integer parsing of a path segment: an optional `-` and one or more
      digits; anything else is rejected. */
  function ParseInt(s: string): (r: Option<int>)
    ensures r.Some? ==> |s| > 0
  {
    if |s| > 0 && s[0] == '-' then
      var d := s[1..];
      if |d| > 0 && forall i :: 0 <= i < |d| ==> IsDigit(d[i]) then Some(0 - DecimalValue(d)) else None
    else if |s| > 0 && forall i :: 0 <= i < |s| ==> IsDigit(s[i]) then Some(DecimalValue(s))
    else None
  }

  lemma {:induction false} DecimalRoundTrip(n: nat)
    ensures DecimalValue(NatToDecimal(n)) == n
    decreases n
  {
    if n >= 10 {
      var r := NatToDecimal(n);
      DecimalRoundTrip(n / 10);
      assert r[..|r| - 1] == NatToDecimal(n / 10);
    }
  }

  /** Rendering an integer and parsing it back gives the same integer. */
  lemma IntRoundTrip(i: int)
    ensures ParseInt(IntToDecimal(i)) == Some(i)
  {
    if i >= 0 {
      DecimalRoundTrip(i);
    } else {
      DecimalRoundTrip(-i);
      assert IntToDecimal(i)[1..] == NatToDecimal(-i);
    }
  }

  /** Distinct integers render to distinct strings. */
  lemma IntToDecimalInjective(i: int, j: int)
    requires IntToDecimal(i) == IntToDecimal(j)
    ensures i == j
  {
    IntRoundTrip(i);
    IntRoundTrip(j);
  }

  /** The part of `s` before the first `c`, all of `s` when `c` does not
      occur. */
  function Before(s: string, c: char): (r: string)
    ensures r <= s
    ensures c !in r
    ensures |r| < |s| ==> s[|r|] == c
  {
    if |s| == 0 || s[0] == c then [] else [s[0]] + Before(s[1..], c)
  }

  /** Text with no `c` in it is its own part before `c`, whatever
      follows a `c` appended to it. */
  lemma {:induction false} BeforeStops(s: string, c: char, rest: string)
    requires c !in s
    ensures Before(s, c) == s
    ensures Before(s + [c] + rest, c) == s
    decreases |s|
  {
    if |s| > 0 {
      BeforeStops(s[1..], c, rest);
      assert (s + [c] + rest)[1..] == s[1..] + [c] + rest;
    }
  }
}

=== FILE: wiring.dfy ===
/**
 * How the three sides fit together: the requests the API client builds
 * reach the matching handlers of the server with the same id, an error the
 * client reports on a load always shows the error panel, and the client's
 * list follows the server's table through a create or a delete.
 */
module Wiring {

  import opened Wrappers
  import opened Text
  import opened Contacts
  import opened ApiClient
  import opened ServerRoutes
  import opened ContactStore
  import opened Seqs
  import App

  /** The target the server receives for a call of the client. */
  function TargetOf(c: Call): (t: string)
    ensures Target(UrlOf(c.endpoint)) == Some(t)
  {
    TargetOfUrl(c.endpoint);
    c.endpoint
  }

  /** Every character of a contact's endpoint after `/contacts/` is a
      digit or a leading minus sign. */
  lemma ContactPathSegment(id: int)
    ensures ContactPath(id)[|ContactsPrefix|..] == IntToDecimal(id)
    ensures '/' !in IntToDecimal(id) && '?' !in IntToDecimal(id)
    ensures '?' !in ContactPath(id)
  {
    var d := IntToDecimal(id);
    assert ContactPath(id) == ContactsPrefix + d;
    forall k | 0 <= k < |d| ensures d[k] != '/' && d[k] != '?' {
      if k > 0 {
        assert IsDigit(d[k]);
      }
    }
    assert '?' !in ContactPath(id) by {
      forall k | 0 <= k < |ContactPath(id)| ensures ContactPath(id)[k] != '?' {
        if k >= |ContactsPrefix| {
          assert ContactPath(id)[k] == d[k - |ContactsPrefix|];
        }
      }
    }
  }

  /** A request on a contact's endpoint reaches the id route of its method
      with exactly that id. */
  lemma ContactPathRoutes(m: Method, id: int)
    ensures m != Post ==> Route(m, ContactPath(id)) == IdHandler(m, id)
    ensures m == Post ==> Route(m, ContactPath(id)) == MethodNotAllowed
  {
    var p := ContactPath(id);
    ContactPathSegment(id);
    BeforeStops(p, '?', "");
    assert SegmentAfter(PathOf(p), ContactsPrefix) == Some(IntToDecimal(id));
    assert p != "/" && p != "/health" && p != "/contacts" by {
      assert |p| > |ContactsPrefix|;
    }
    if m != Post {
      IdRouteParses(m, p);
      IntRoundTrip(id);
    }
  }

  /** The list call reaches the list handler, carrying its search as the
      query string. */
  lemma ListCallRoutes(search: Option<string>, encode: string -> string)
    ensures var c := GetContactsCall(search, encode);
      Route(MethodOf(c), TargetOf(c))
        == ListContacts(if search.Some? && search.value != "" then "search=" + encode(search.value) else "")
  {
    var c := GetContactsCall(search, encode);
    if search.Some? && search.value != "" {
      SearchQueryRoutes("search=" + encode(search.value));
    } else {
      SearchQueryRoutes("");
    }
  }

  /** `/contacts`, with a query or without, is the list route for a GET. */
  lemma SearchQueryRoutes(q: string)
    ensures Route(Get, if q != "" then "/contacts?" + q else "/contacts") == ListContacts(q)
  {
    if q != "" {
      assert "/contacts?" + q == "/contacts" + "?" + q;
      SplitTarget("/contacts", q);
    } else {
      BeforeStops("/contacts", '?', "");
    }
  }

  /** The endpoint table of the client agrees with the route table of the
      server: each operation reaches the handler of the same name, with
      the same id, and the list operation carries its search as the query
      string. */
  lemma ClientCallsReachHandlers<T>(id: int, data: T, toJson: T -> string,
                                    search: Option<string>, encode: string -> string)
    ensures Route(MethodOf(GetContactCall(id)), TargetOf(GetContactCall(id))) == ReadContact(id)
    ensures Route(MethodOf(UpdateContactCall(id, data, toJson)),
                  TargetOf(UpdateContactCall(id, data, toJson))) == ChangeContact(id)
    ensures Route(MethodOf(DeleteContactCall(id)), TargetOf(DeleteContactCall(id))) == RemoveContact(id)
    ensures Route(MethodOf(CreateContactCall(data, toJson)),
                  TargetOf(CreateContactCall(data, toJson))) == AddContact
    ensures var c := GetContactsCall(search, encode);
      Route(MethodOf(c), TargetOf(c))
        == ListContacts(if search.Some? && search.value != "" then "search=" + encode(search.value) else "")
  {
    ContactPathRoutes(Get, id);
    ContactPathRoutes(Put, id);
    ContactPathRoutes(Delete, id);
    BeforeStops("/contacts", '?', "");
    ListCallRoutes(search, encode);
  }

  /** The search and health calls reach their handlers. The search handler
      receives the encoded term, which `encodeURIComponent` keeps free of
      `/` and `?`; an empty term leaves no segment and reaches no route. */
  lemma SearchAndHealthReachHandlers(term: string, encodeComponent: string -> string)
    requires '/' !in encodeComponent(term) && '?' !in encodeComponent(term)
    ensures Route(MethodOf(HealthCheckCall()), TargetOf(HealthCheckCall())) == Health
    ensures var c := SearchContactsCall(term, encodeComponent);
      && (encodeComponent(term) != "" ==>
            Route(MethodOf(c), TargetOf(c)) == ServerRoutes.SearchContacts(encodeComponent(term)))
      && (encodeComponent(term) == "" ==> Route(MethodOf(c), TargetOf(c)) == NoRoute)
  {
    HealthRouteReached();
    var e := encodeComponent(term);
    if e != "" {
      SearchRouteReached(e);
    } else {
      assert SearchContactsCall(term, encodeComponent).endpoint == SearchPrefix;
      EmptySearchNoRoute();
    }
  }

  /** The screen's load asks for `/contacts` with no query, so the list
      handler runs with its default offset and limit, and the client ends up
      showing the first hundred rows of the table: all of them when there
      are no more than that. */
  lemma LoadShowsFirstPage(s: App.State, st: Store, encode: string -> string,
                           contains: (string, string) -> bool, status: int)
    ensures Route(MethodOf(GetContactsCall(None, encode)), TargetOf(GetContactsCall(None, encode)))
         == ListContacts("")
    ensures var page := GetContacts(st, DefaultSkip, DefaultLimit, None, contains);
      var r := App.FinishLoad(App.StartLoad(s), Settle(Response(true, status, Parsed(page, None))));
      && !r.loading && r.error == None
      && r.contacts == st.rows[..if |st.rows| < DefaultLimit then |st.rows| else DefaultLimit]
      && (|st.rows| <= DefaultLimit ==> r.contacts == st.rows)
  {
    ListCallRoutes(None, encode);
    DefaultListIsFirstPage(st, contains);
  }

  /** Any load the client reports as failed ends with the error panel and
      nothing else: a response that is not ok always gives a message that
      is not empty. */
  lemma FailedLoadShowsError(s: App.State, status: int, body: Body<seq<Contact>>)
    ensures var r := App.FinishLoad(App.StartLoad(s), Settle(Response(false, status, body)));
      && App.ErrorShown(r)
      && App.Panels(r) == {App.ErrorPanel}
      && r.contacts == s.contacts
  {
  }

  /** After a create that the server accepts, a client list holding the
      same contacts as the server's table still does, the new one first on
      the client and last on the server. */
  lemma CreateKeepsClientInStep(s: App.State, st: Store, nc: NewContact)
    requires multiset(s.contacts) == multiset(st.rows)
    requires CreateContact(st, nc).Ok?
    ensures var (st', c) := CreateContact(st, nc).value;
      var r := App.ContactCreated(s, Ok(c));
      && multiset(r.contacts) == multiset(st'.rows)
      && r.contacts[0] == c && st'.rows[|st'.rows| - 1] == c
  {
    var (st', c) := CreateContact(st, nc).value;
    var r := App.ContactCreated(s, Ok(c));
    assert r.contacts == [c] + s.contacts;
  }

  /** After a delete that the server accepts, a client list holding the
      same contacts as the server's table still does, and a client list
      equal to the table stays equal to it, in the same order. */
  lemma DeleteKeepsClientInStep(s: App.State, st: Store, id: int)
    requires multiset(s.contacts) == multiset(st.rows)
    requires DeleteContact(st, id).Ok?
    ensures multiset(App.ContactDeleted(s, id, Ok(())).contacts) == multiset(DeleteContact(st, id).value.rows)
    ensures s.contacts == st.rows ==>
      App.ContactDeleted(s, id, Ok(())).contacts == DeleteContact(st, id).value.rows
  {
    KeepSameMultiset(s.contacts, st.rows, OtherId(id));
  }
}

=== FILE: wrappers.dfy ===
/** Optional values and results that carry either a value or an error. */
module Wrappers {

  datatype Option<+T> = None | Some(value: T)

  datatype Result<+T, +E> = Ok(value: T) | Err(error: E)
}
